=== FILE: README.md ===
# AI exam system: a Dafny model of its core

The exam system is a Flask service. Students register, log in with a JWT, start
exam sessions and submit answers. Essay answers are graded by a BERT classifier.
Administrators author exams whose questions may be written by hand or generated
by GPT-2.

This project models the deterministic core of that service as pure Dafny
functions over immutable records:

- **Registration and access.** Password strength, the e-mail pattern and the
  "already registered" check, the ordered checks of `create_user`, and the
  `token_required` / `admin_required` decisions (`auth.dfy`), and how
  `admin_required` calls the admin views (`admin_routes.dfy`).
- **Essay feedback.** The score mapping of `grade_essay` and the
  `generate_feedback` text with its two heuristics: essay length, and reference
  words the essay misses (`essay_grader.dfy`).
- **Question generation.** The prompts of `generate_question`, the decoded
  output (the prompt followed by what GPT-2 wrote), and its post-processing
  into a question record (`question_generator.dfy`).
- **Exam authoring and role administration.** `create_exam`, `add_question` in
  both modes, the `get_exam_details` projection and `update_user_role`
  (`admin_routes.dfy`).
- **Sessions.** `start_exam` and `submit_exam` (`exam_routes.dfy`).

Supporting files:

- `models.dfy` holds the tables as records. A table is a sequence; a row's id is
  its 1-based position, since rows are only appended.
- `http.dfy` holds replies, and the database a request leaves behind (the old
  one when it rolls back).
- `text.dfy` holds the Python string operations the code relies on: `split`,
  `strip`, `lower`, `join`, `replace`.
- `wrappers.dfy` holds `Option` and `Result`.

Everything the code cannot decide by itself arrives as a parameter:

- the JWT decoder's verdict on a token;
- the password hasher;
- the clock (`now`);
- the classifier's class index;
- what GPT-2 writes after each prompt;
- the order in which Python lists a set;
- the essay grader, for the intended submission.

A JSON request body is a record whose keys are `Option`s, where `None` means the
key is absent.

## Model

| member | source | states |
|---|---|---|
| Text.Split | ai_exam_system/utils/ai_models.py:165 | `split(sep)` yields at least one piece and no piece contains the separator |
| Text.JoinSplit | ai_exam_system/utils/ai_models.py:165 | joining the pieces of a split with the separator gives back the original string |
| Text.SplitJoin | ai_exam_system/utils/ai_models.py:100 | splitting a join of separator-free pieces gives back exactly those pieces |
| Text.SplitHead | ai_exam_system/utils/ai_models.py:165-166 | the first piece is the text before the first separator; there are two or more pieces iff the separator occurs; the later pieces are the split of the rest |
| Text.Words | ai_exam_system/utils/ai_models.py:86 | `split()` yields only non-empty, whitespace-free words |
| Text.WordsOfJoin | ai_exam_system/utils/ai_models.py:86 | words joined by single spaces split back into the same words |
| Text.WordsSkipsSpace | ai_exam_system/utils/ai_models.py:86 | a whitespace character in front of the text is skipped, so leading, repeated and trailing whitespace never makes a piece |
| Text.WordsTakesWord | ai_exam_system/utils/ai_models.py:86 | a word followed by the end or by whitespace is the first piece, and splitting continues after it; with the previous lemma this determines `split()` on every text |
| Text.WordsExample | ai_exam_system/utils/ai_models.py:86 | `" a".split()` is `["a"]` |
| Text.Lower | ai_exam_system/utils/ai_models.py:90-91 | `lower()` keeps the length and lower-cases every letter, leaving other characters alone |
| Text.Strip | ai_exam_system/utils/ai_models.py:166 | `strip()` result is empty iff the input is all whitespace, and otherwise neither starts nor ends with whitespace |
| Text.StripKeepsMiddle | ai_exam_system/utils/ai_models.py:166 | `strip()` returns a contiguous piece of the input, with only whitespace on either side of it |
| Text.StripOfStripped | ai_exam_system/utils/ai_models.py:189 | stripping a string without outer whitespace changes nothing |
| Text.StripKeepsClosedFront | ai_exam_system/utils/ai_models.py:166 | a non-empty string without outer whitespace survives, as a prefix, the stripping of anything it starts |
| Text.RemoveAll | ai_exam_system/utils/ai_models.py:166 | `replace(pat, '')` never lengthens the text |
| Text.RemoveAllWithoutOccurrence | ai_exam_system/utils/ai_models.py:166 | a text in which the pattern occurs nowhere is returned unchanged |
| Text.RemoveAllAfterPattern | ai_exam_system/utils/ai_models.py:166 | an occurrence of the pattern at the front is deleted and the scan goes on after it |
| Text.RemoveAllKeepsHead | ai_exam_system/utils/ai_models.py:166 | a first character at which no occurrence starts is kept, and the scan goes on from the next one |
| Text.RemoveAllKeepsFirst | ai_exam_system/utils/ai_models.py:166 | the first n characters, at none of which an occurrence starts, are kept as they are, and the rest is scanned on its own |
| Text.RemoveAllKeepsPrefix | ai_exam_system/utils/ai_models.py:166 | a prefix in which no occurrence starts is kept verbatim; with the front-occurrence lemma, every occurrence the scan meets is deleted wherever it stands |
| Models.Lookup | ai_exam_system/controllers/exam_routes.py:26 | `query.get(id)` finds a row iff the id names one, and then it is that row |
| Models.NextId | ai_exam_system/models.py:11 | the id a new row receives names no existing row |
| Auth.ValidatePassword | ai_exam_system/utils/auth.py:105-122 | accepts exactly the strings of length ≥ 8 with a digit, an upper-case and a lower-case letter; each failure names the first rule broken, in the order length, digit, upper, lower |
| Auth.PasswordExamples | ai_exam_system/utils/auth.py:110-122 | "abc" is refused as too short; "Abcd1234" is valid |
| Auth.EmailMatcherIsPattern | ai_exam_system/utils/auth.py:131-133 | the computed matcher accepts exactly the addresses the regular expression describes |
| Auth.ValidateEmail | ai_exam_system/utils/auth.py:124-140 | a non-matching address is "Invalid email format" whatever the store holds; a matching one held by any account is "Email already registered"; otherwise valid |
| Auth.CreateUser | ai_exam_system/utils/auth.py:142-173 | checks e-mail, then password, then username, and reports the first failure with the store unchanged; success appends exactly one account with the given username, e-mail and role (default student), the hash of the password, and no other change |
| Auth.CreateUserKeepsStoreValid | ai_exam_system/models.py:12-13 | registration keeps usernames and e-mail addresses unique |
| Auth.RegisteringTwiceFails | ai_exam_system/utils/auth.py:136-160 | after a successful registration, a second one with the same e-mail gets "Email already registered", and one with the same username fails |
| Auth.BearerToken | ai_exam_system/utils/auth.py:76-81 | `header.split(" ")[1]` exists iff the header holds a space, and is the space-free field after the first space |
| Auth.TokenRequired | ai_exam_system/utils/auth.py:37-68 | no header, no second field or an empty token is exactly 401 "Token is missing"; a rejected token is 401 with the decoder's message; a subject naming no user is 401 "User not found"; the handler runs iff the decoder names an existing user, and then with that user |
| Auth.AdminRequired | ai_exam_system/utils/auth.py:70-103 | the same three 401 replies as the token gate ("Token is missing", the decoder's message, "User not found"); the handler runs iff the token names an existing user whose role is admin; a known non-admin is exactly the 403 case |
| Auth.AdminGateRefinesTokenGate | ai_exam_system/utils/auth.py:86-96 | the admin gate admits exactly the token gate's admins, refuses what the token gate refuses with the same reply, and gives 403 to the token gate's non-admins |
| Auth.SelfRegisteredAdminPassesAdminGate | ai_exam_system/utils/auth.py:163-167 | `create_user` stores whatever role it is given, so a self-registered admin passes the admin gate |
| EssayGrader.PredictedScore | ai_exam_system/utils/ai_models.py:57-59 | the score is the predicted class index plus one, so with five labels it lies in 1..5 |
| EssayGrader.BaseFeedback | ai_exam_system/utils/ai_models.py:72-80 | the template is "Invalid score" iff the score lies outside 1..5 |
| EssayGrader.BaseFeedbackIsInjective | ai_exam_system/utils/ai_models.py:72-78 | different scores in 1..5 get different templates |
| EssayGrader.BaseFeedbackIsOneLine | ai_exam_system/utils/ai_models.py:72-80 | every template is a single line |
| EssayGrader.Suggestions | ai_exam_system/utils/ai_models.py:83-95 | the length hint is present iff the essay has fewer than half the reference's words; the key-concepts hint iff some lower-cased reference word is missing from the essay; no hint otherwise; at most these two, the length hint first when both are present |
| EssayGrader.KeyTermsAreMissingWords | ai_exam_system/utils/ai_models.py:90-95 | the quoted terms are at most three distinct reference words the essay lacks, and as many as there are up to three |
| EssayGrader.SuggestionsAreOneLine | ai_exam_system/utils/ai_models.py:93-95 | no suggestion spans more than one line |
| EssayGrader.GenerateFeedback | ai_exam_system/utils/ai_models.py:97-102 | the feedback starts with the score's template and equals it exactly iff there is no suggestion |
| EssayGrader.FeedbackLines | ai_exam_system/utils/ai_models.py:97-100 | the feedback's lines are the template alone, or the template, a blank line, "Specific suggestions:" and one "- " bullet per suggestion in order |
| EssayGrader.GradeEssay | ai_exam_system/utils/ai_models.py:40-64 | the score is the class index plus one, in 1..5; the feedback is the generated feedback for that score, opening with its template and never with "Invalid score" |
| EssayGrader.GradedFeedbackLines | ai_exam_system/utils/ai_models.py:57-64 | the graded feedback's lines are the template of the class index plus one alone, or followed by a blank line, the heading and one bullet per suggestion |
| QuestionGenerator.CleanQuestionText | ai_exam_system/utils/ai_models.py:166 | the cleaned text has no outer whitespace and is no longer than the input |
| QuestionGenerator.CleanLabelFreeText | ai_exam_system/utils/ai_models.py:166 | a text in which "Question:" does not occur is only stripped |
| QuestionGenerator.CleanQuestionTextDropsInnerLabel | ai_exam_system/utils/ai_models.py:166 | a "Question:" after a label-free front is deleted too, not only one at the start: the front is kept and the removal goes on after the label |
| QuestionGenerator.LabelledLineGivesItsText | ai_exam_system/utils/ai_models.py:166 | a "Question:" label in front of a label-free line is removed along with the whitespace around the text |
| QuestionGenerator.FirstLine | ai_exam_system/utils/ai_models.py:165-166 | the first line is a newline-free prefix of the text, followed by a newline when shorter than the text |
| QuestionGenerator.OptionLines | ai_exam_system/utils/ai_models.py:189 | there are no more options than lines, and none is empty |
| QuestionGenerator.OptionsAreStrippedLines | ai_exam_system/utils/ai_models.py:189 | every option is some line with its outer whitespace removed |
| QuestionGenerator.OptionsHaveNoOuterSpace | ai_exam_system/utils/ai_models.py:189 | no option starts or ends with whitespace |
| QuestionGenerator.NoOptionsIffAllBlank | ai_exam_system/utils/ai_models.py:189-190 | there are no options iff every line is blank |
| QuestionGenerator.OptionLinesOfConcat | ai_exam_system/utils/ai_models.py:189 | extraction keeps line order: options of a concatenation are the concatenation of the options |
| QuestionGenerator.CleanLinesAreOptions | ai_exam_system/utils/ai_models.py:189 | lines that are already non-empty and stripped are kept as they are |
| QuestionGenerator.FirstOptions | ai_exam_system/utils/ai_models.py:189 | `[:4]` keeps a prefix of length min(n, 4) |
| QuestionGenerator.OptionSource | ai_exam_system/utils/ai_models.py:165-190 | options are read from the lines after the first when the generated text has a line feed, otherwise from the lines of the second generation |
| QuestionGenerator.ProcessMultipleChoice | ai_exam_system/utils/ai_models.py:161-200 | the question is the cleaned first line; the options are the first four non-blank later lines, stripped, or those of the second generation for a one-line text; the answer is the first option, so it is one of them; no options is the wrapped `IndexError` |
| QuestionGenerator.MultipleChoiceFailsIffBlank | ai_exam_system/utils/ai_models.py:186-190 | processing fails iff every line the options come from is blank |
| QuestionGenerator.ProcessMultipleChoiceInvertsLayout | ai_exam_system/utils/ai_models.py:161-197 | a one-line question followed by one to four clean option lines is processed back into that line cleaned, those options and the first as answer |
| QuestionGenerator.ProcessEssayQuestion | ai_exam_system/utils/ai_models.py:202-226 | an essay question's text is the whole generated text cleaned, its type is essay, and its reference answer is the second generation |
| QuestionGenerator.GenerateQuestion | ai_exam_system/utils/ai_models.py:122-159 | the decoded output is the prompt followed by the continuation; 'multiple_choice' gives exactly the multiple-choice processing of it (options prompted with the cleaned first line), any other type exactly the essay processing of it (reference prompted with the cleaned text); a failure is the processing failure wrapped once more; a multiple-choice answer is one of at most four options |
| QuestionGenerator.DecodedOutput | ai_exam_system/utils/ai_models.py:138-150 | the decoded output begins with the prompt and continues with exactly what the model wrote |
| QuestionGenerator.DecodedLines | ai_exam_system/utils/ai_models.py:129-150 | the decoded multiple-choice output's first line is the prompt's topic line, and its later lines are those of "Question:" followed by the continuation |
| QuestionGenerator.MultipleChoiceQuestionIsPromptLine | ai_exam_system/utils/ai_models.py:129-166 | as written, a multiple-choice generation always succeeds, stores the prompt's topic line as the question, and takes the completed "Question:" line, label included, as the correct answer |
| QuestionGenerator.CleanDecodedText | ai_exam_system/utils/ai_models.py:166 | cleaning a decoded text whose first line has no label removes the prompt's trailing "Question:" and the labels after it, keeping the first line |
| QuestionGenerator.EssayQuestionOpensWithPrompt | ai_exam_system/utils/ai_models.py:129-226 | as written, an essay question's text opens with the prompt's topic line and its reference answer with the reference prompt |
| QuestionGenerator.GenerateQuestionIntended | ai_exam_system/utils/ai_models.py:122-159 | with only the new tokens decoded, multiple choice is exactly the processing of the model's continuation and its options continuation, an essay exactly the essay processing of the continuation with the reference continuation as answer |
| QuestionGenerator.IntendedQuestionFollowsGeneration | ai_exam_system/utils/ai_models.py:122-197 | with only the new tokens decoded, a question line followed by one to four clean option lines comes back as that question, those options and the first as answer, whatever the topic |
| AdminRoutes.CreateExam | ai_exam_system/controllers/admin_routes.py:9-34 | a missing title, and then a missing duration, is a 400 naming the key with nothing stored; otherwise exactly one exam is appended with the given fields and description defaulting to "", its id is reported, and no other table changes |
| AdminRoutes.CreateExamKeepsStoreValid | ai_exam_system/controllers/admin_routes.py:16-23 | creating an exam keeps the database constraints |
| AdminRoutes.GeneratedOptions | ai_exam_system/controllers/admin_routes.py:64-71 | one option per generated option, in order, correct iff its text equals the correct answer |
| AdminRoutes.GeneratedRows | ai_exam_system/controllers/admin_routes.py:52-74 | a generated question keeps the generated text and type; multiple choice stores its answer and options, an essay its reference answer and no options |
| AdminRoutes.ManualOptions | ai_exam_system/controllers/admin_routes.py:89-95 | manual options succeed iff every entry has a text, one row per entry with `is_correct` defaulting to false; otherwise the `KeyError` 'text' |
| AdminRoutes.ManualRows | ai_exam_system/controllers/admin_routes.py:77-95 | `question_text`, then `question_type`, is required; points default to 1; options are read only for a multiple-choice question |
| AdminRoutes.GeneratedRowsFor | ai_exam_system/controllers/admin_routes.py:45-57 | generated mode needs `topic`; it succeeds iff the generator does, passes the generator's failure text on unchanged, and otherwise stores the generated rows with points defaulting to 1 |
| AdminRoutes.AddQuestion | ai_exam_system/controllers/admin_routes.py:36-102 | the reply is 201 or 500; any failure stores nothing; success adds exactly one question of that exam with points defaulting to 1, whose added options all belong to it, and changes no other table |
| AdminRoutes.ManualQuestionRows | ai_exam_system/controllers/admin_routes.py:77-95 | a manual question stores the request's text, type and answer, with one option per entry exactly when it is multiple choice |
| AdminRoutes.ManualQuestionNeedsNoCorrectOption | ai_exam_system/controllers/admin_routes.py:88-95 | a multiple-choice question with no correct option is accepted |
| AdminRoutes.GeneratedQuestionRows | ai_exam_system/controllers/admin_routes.py:59-74 | a generated multiple-choice question gets one option per generated option, each correct iff it equals the answer, so the first is correct; an essay stores its reference answer and gets no options |
| AdminRoutes.GeneratedTypeFollowsRequest | ai_exam_system/controllers/admin_routes.py:47-55 | a generated question is multiple choice when that type or no type was asked for, an essay otherwise |
| AdminRoutes.AddQuestionKeepsStoreValid | ai_exam_system/controllers/admin_routes.py:52-97 | adding a question keeps every foreign key valid |
| AdminRoutes.UnknownExamIsServerError | ai_exam_system/controllers/admin_routes.py:40-102 | as written, an unknown exam is a 500, never the 404, and stores nothing |
| AdminRoutes.AddQuestionIntended | ai_exam_system/controllers/admin_routes.py:42 | with the 404 let through, an unknown exam is exactly the NotFound case and stores nothing |
| AdminRoutes.IdsWhere | ai_exam_system/controllers/admin_routes.py:117 | the ids of the rows that satisfy a condition, increasing, each such row included |
| AdminRoutes.OptionViews | ai_exam_system/controllers/admin_routes.py:115-116 | one entry per option of the question, carrying only its id and text |
| AdminRoutes.QuestionViewOf | ai_exam_system/controllers/admin_routes.py:110-116 | the view carries the question's id, text, type and points; options are listed iff the question is multiple choice, and are then the question's option views |
| AdminRoutes.ExamQuestionViews | ai_exam_system/controllers/admin_routes.py:110-117 | one view per question id of the exam |
| AdminRoutes.ExamQuestionsInOrder | ai_exam_system/controllers/admin_routes.py:110-117 | the listed questions are in increasing id order, all belong to the exam, and list options iff multiple choice |
| AdminRoutes.ExamQuestionsComplete | ai_exam_system/controllers/admin_routes.py:117 | every question of the exam is listed |
| AdminRoutes.GetExamDetails | ai_exam_system/controllers/admin_routes.py:104-125 | an unknown exam is a 404; otherwise the exam's own fields and its question list |
| AdminRoutes.ExamDetailsHideAnswerKeys | ai_exam_system/controllers/admin_routes.py:110-125 | blanking every correct answer and `is_correct` flag leaves the details unchanged, so they reveal neither |
| AdminRoutes.UpdateUserRole | ai_exam_system/controllers/admin_routes.py:172-193 | success iff the user exists and the role is student or admin; a missing role is 400 "Role is required", any other role 400 "Invalid role", with nothing changed; success changes that user's role and nothing else |
| AdminRoutes.UnknownUserIsServerError | ai_exam_system/controllers/admin_routes.py:176-193 | as written, an unknown user is a 500, never the 404, and changes nothing |
| AdminRoutes.UpdateUserRoleIntended | ai_exam_system/controllers/admin_routes.py:178 | with the 404 let through, an unknown user is exactly the NotFound case |
| AdminRoutes.GatedAsWritten | ai_exam_system/utils/auth.py:70-103 | as written, every admin request is refused: a denied one with the gate's reply, a granted one with a 500, since the view is called with an extra user argument |
| AdminRoutes.Gated | ai_exam_system/utils/auth.py:86-101 | as intended, a request is served by the view iff the gate grants it, and otherwise refused with the gate's reply |
| AdminRoutes.GatedAsWrittenDiffersIffGranted | ai_exam_system/utils/auth.py:101 | the written and intended wiring give the same answer exactly on the requests the gate refuses |
| AdminRoutes.AdminCreateExamIsServerError | ai_exam_system/controllers/admin_routes.py:9-11 | as written, a complete exam request from an admin is a 500, where the view's body would create exactly one exam with a 201 |
| AdminRoutes.UpdateUserRoleKeepsStoreValid | ai_exam_system/controllers/admin_routes.py:186-187 | a role update keeps the database constraints |
| ExamRoutes.StartExam | ai_exam_system/controllers/exam_routes.py:21-33 | an unknown exam is a 404 with no session; otherwise exactly one session is appended for the caller and exam, in progress, with no end time or score, and its id is reported |
| ExamRoutes.StartingTwiceOpensTwoSessions | ai_exam_system/controllers/exam_routes.py:29-33 | two starts of the same exam open two distinct sessions of the caller |
| ExamRoutes.StartExamKeepsStoreValid | ai_exam_system/controllers/exam_routes.py:29-31 | starting an exam keeps the database constraints |
| ExamRoutes.AnswerRows | ai_exam_system/controllers/exam_routes.py:48-54 | one Answer row per entry, in order, copying question id and text, with no score or feedback |
| ExamRoutes.GradingStop | ai_exam_system/controllers/exam_routes.py:58-59 | the grading loop passes entries that have a non-essay type and stops at the first that has no type or is an essay |
| ExamRoutes.GraderCalls | ai_exam_system/controllers/exam_routes.py:58-60 | the essay grader is called at most once, and only on the entry where grading stops: exactly when that entry is an essay with a reference answer |
| ExamRoutes.SubmitExam | ai_exam_system/controllers/exam_routes.py:35-66 | unknown session is 404 and another student's session 403; for the owner, success iff every entry has id, text and a non-essay type, and every other outcome is the 500 of an uncaught exception; success appends one Answer per entry in order; any failure stores nothing; the session row never changes; the essay grader is called exactly as the grading loop reaches it once the owner's entries all have id and text |
| ExamRoutes.EmptySubmissionAddsNothing | ai_exam_system/controllers/exam_routes.py:46 | without an `answers` key the submission succeeds and stores nothing |
| ExamRoutes.EssaySubmissionsAlwaysFail | ai_exam_system/controllers/exam_routes.py:58-62 | as written, a submission with an essay answer never succeeds and stores none of its answers; the session's owner gets a 500 |
| ExamRoutes.EssayAnswerIsLost | ai_exam_system/controllers/exam_routes.py:58-64 | a single well-formed essay answer reaches the essay grader and still ends in a 500 that stores nothing |
| ExamRoutes.SubmitExamKeepsStoreValid | ai_exam_system/controllers/exam_routes.py:48-64 | submitting keeps the database constraints |
| ExamRoutes.GradedRow | ai_exam_system/controllers/exam_routes.py:58-62 | an essay answer's row carries the grade of its text against its reference; other rows carry none |
| ExamRoutes.EssayPositions | ai_exam_system/controllers/exam_routes.py:58-59 | the positions of the essay entries, increasing, each included |
| ExamRoutes.SubmitExamIntended | ai_exam_system/controllers/exam_routes.py:35-66 | with grades written to the Answer rows and the same guards: unknown session 404, another student's session 403, an incomplete entry of the owner 500 with nothing stored; success iff the caller owns the session and every entry is complete; row k of the new rows is exactly the graded row of entry k, so every essay's score and feedback are stored on its own row |
| ExamRoutes.IntendedAgreesWithoutEssays | ai_exam_system/controllers/exam_routes.py:48-66 | on submissions without essays the intended and written behaviour give the same reply and database |
| ExamRoutes.IntendedStoresEssayGrade | ai_exam_system/controllers/exam_routes.py:58-64 | the essay answer lost as written is stored with its grade under the intended behaviour |
| ExamRoutes.SubmitExamIntendedKeepsStoreValid | ai_exam_system/controllers/exam_routes.py:48-64 | the intended submission keeps the database constraints |

## Left out

- Model loading, tokenisation and inference: BERT and GPT-2 are foreign code. The classifier's class index, the generated texts and the set-listing order are parameters.
- Tokenisation round trips are taken as exact: decoding the prompt's tokens gives the prompt back. `max_length`, sampling and `no_repeat_ngram_size` only shape the continuations, which are parameters.
- The lazy singletons `get_essay_grader` and `get_question_generator` are left out. So is the failure to load a model.
- ExamRoutes.SubmitExam: assumes the essay grader loads. As written, a load failure makes every submission a 500, even one without essays.
- JWT encoding, decoding and expiry are left out. The decoder's result (a user id or an error message) is a parameter.
- Werkzeug password hashing is left out. The hash function is a parameter.
- Auth.CreateUser: `generate_password_hash` salts each hash at random, so two hashes of one password differ. The model takes the hash as a function of the password alone, and promises only that the stored hash is that function's value.
- Flask routing and SQLAlchemy sessions are left out. A request maps an old database to a new one. A rollback, or an exception that no handler catches, returns the old database.
- JSON bodies that are not objects, `null` values and values of the wrong type are left out. Every key is either present with a value of the expected type or absent.
- `generate` counts only when it is JSON `true`. Other truthy values are left out.
- `auth_routes.py` (`register`, `login`), `config.py` and `app.py` are not part of this model.
- The listing routes `get_exams`, `get_exam_results` and `get_users` are left out. They only read.
- `ProctoringLog` is left out: no code writes it.
- Auth.ValidatePassword: digits, upper case and lower case are ASCII only. Python's `isdigit`, `isupper` and `islower` also accept other Unicode characters.
- Text.Strip: whitespace is the ASCII whitespace of Python's `isspace`. Unicode spaces are not stripped. The same holds for Text.Words.
- Text.Lower: lower-cases ASCII letters only.
- Auth.ValidateEmail: the model reads `$` as the end of the string. Python's `$` also matches before a single trailing newline.
- Auth.CreateUser: the `except Exception` branch ("Error creating user") is not reached, because hashing and committing cannot fail here.
- Auth.TokenRequired: the `except Exception` branch for database errors is left out. The same holds for Auth.AdminRequired.
- EssayGrader.GradeEssay: the `* 0.5` float comparison is the integer test `2 * essay < reference`, which is exact for word counts.
- AdminRoutes.GetExamDetails: the questions and options relationships carry no `ORDER BY`. The model lists them in id order, which is SQLite's usual row order.
- Timestamps are the `now` parameter rather than `datetime.utcnow()`.
- Answer question ids are stored without checking that the question exists. SQLite does not enforce foreign keys by default.
- AdminRoutes.CreateExam: the body is modelled as if `admin_required` passed the view only its URL arguments; as written no admin view runs (see `AdminRoutes.GatedAsWritten`). The same holds for AdminRoutes.AddQuestion, AdminRoutes.GetExamDetails and AdminRoutes.UpdateUserRole.
- AdminRoutes.CreateExam: a JSON `null` title or duration passes the key checks and then fails the NOT NULL constraint. That path is left out with the rest of the `null` values.

## Findings

| source | as written | input that shows it | evidently intended | confidence | as-written member | corrected member |
|---|---|---|---|---|---|---|
| ai_exam_system/controllers/admin_routes.py:40-42 | `get_or_404` runs inside `try ... except Exception`. Werkzeug's NotFound is an Exception, so it is caught and answered with a 500 "Error adding question: 404 Not Found: ..." | `POST /exams/999/questions` when exam 999 does not exist | a 404 for an unknown exam | high, not executed | AdminRoutes.UnknownExamIsServerError | AdminRoutes.AddQuestionIntended |
| ai_exam_system/controllers/admin_routes.py:176-178 | the same pattern in `update_user_role`: an unknown user becomes a 500 "Error updating user role: 404 Not Found: ..." | `PUT /users/999/role` with `{"role": "admin"}` when user 999 does not exist | a 404 for an unknown user | high, not executed | AdminRoutes.UnknownUserIsServerError | AdminRoutes.UpdateUserRoleIntended |
| ai_exam_system/controllers/exam_routes.py:58-62 | the grade is assigned as attributes of the request's answer dict (`answer.score = score`). That raises AttributeError after the first essay is graded, so the request is a 500 and none of its Answer rows is committed | a submission by the session's owner with one entry `{"question_id": 1, "answer_text": "essay text", "question_type": "essay", "reference_answer": "reference"}` | every essay answer graded, its score and feedback stored on its own Answer row, and a 200 | high, not executed | ExamRoutes.EssayAnswerIsLost | ExamRoutes.SubmitExamIntended |
| ai_exam_system/utils/auth.py:101 | `admin_required` calls the view as `f(current_user, *args, **kwargs)`, but no admin view takes a user parameter, so every granted request raises `TypeError` and is a 500 that stores nothing | `POST /exams` with a valid admin token and `{"title": "T", "duration_minutes": 30}` | the view called with its URL arguments only (as `f(*args, **kwargs)`), giving a 201 and a new exam | high, not executed | AdminRoutes.GatedAsWritten | AdminRoutes.Gated |
| ai_exam_system/utils/ai_models.py:138-154 | `generate` returns the prompt's tokens followed by the new ones, and the whole output is decoded and processed, so a multiple-choice question is the prompt's line "Generate a multiple choice question about T:" and its correct answer the "Question: ..." line the model completed | `generate_question("Python")` with any model output | the question, options and answer taken from what the model wrote after the prompt | high, not executed | QuestionGenerator.MultipleChoiceQuestionIsPromptLine | QuestionGenerator.GenerateQuestionIntended |

=== FILE: admin_routes.dfy ===
/** The admin blueprint: creating exams, adding questions (by hand or
    generated), the exam-details projection and role updates. Every route sits
    behind `AdminRequired`. As written, the decorator hands the granted user to
    views that take no user parameter, so a granted request fails before the
    view runs (`GatedAsWritten`); the route functions below model each view's
    body as if the decorator passed only the URL arguments (`Gated`). A JSON
    body is a record whose keys are optional (None = key absent). */
module AdminRoutes {
  import opened Wrappers
  import opened Models
  import opened Http
  import opened QuestionGenerator
  import Auth

  /** The tables other than `exams` are as they were. */
  predicate OnlyExamsGrew(before: Store, after: Store) {
    && before.exams <= after.exams
    && after.(exams := before.exams) == before
  }

  /** The tables other than `questions` and `options` are as they were. */
  predicate OnlyQuestionsGrew(before: Store, after: Store) {
    && before.questions <= after.questions
    && before.options <= after.options
    && after.(questions := before.questions, options := before.options) == before
  }

  // ---------------------------------------------------------------- create_exam

  datatype ExamRequest = ExamRequest(title: Option<string>, description: Option<string>,
                                     durationMinutes: Option<int>)

  const ExamCreated := "Exam created successfully"

  /** The 400 reply of the `KeyError` handler. */
  function MissingField(key: string): Reply {
    Reply(400, "Missing required field: " + KeyErrorText(key))
  }

  /** `create_exam`: the title is read first, then the duration; a missing one
      is a 400 naming it. The description defaults to the empty string. No
      check is made on the duration's value. */
  function CreateExam(store: Store, req: ExamRequest, now: Time): (r: Outcome)
    ensures req.title.None? ==> r == Unchanged(MissingField("title"), store)
    ensures req.title.Some? && req.durationMinutes.None? ==>
              r == Unchanged(MissingField("duration_minutes"), store)
    ensures r.reply.status == 201 <==> req.title.Some? && req.durationMinutes.Some?
    ensures r.reply.status != 201 ==> r.store == store
    ensures r.reply.status == 201 ==>
              && r.reply.message == ExamCreated
              && OnlyExamsGrew(store, r.store)
              && |r.store.exams| == |store.exams| + 1
              && r.createdId == Some(NextId(store.exams))
              && Lookup(r.store.exams, NextId(store.exams))
                 == Some(Exam(req.title.value, req.description.GetOr(""),
                              req.durationMinutes.value, now))
  {
    if req.title.None? then Unchanged(MissingField("title"), store)
    else if req.durationMinutes.None? then Unchanged(MissingField("duration_minutes"), store)
    else
      var exam := Exam(req.title.value, req.description.GetOr(""), req.durationMinutes.value, now);
      Outcome(Reply(201, ExamCreated), store.(exams := store.exams + [exam]),
              Some(NextId(store.exams)))
  }

  // --------------------------------------------------------------- add_question

  datatype OptionEntry = OptionEntry(text: Option<string>, isCorrect: Option<bool>)

  /** The body of `add_question`; `generate` selects the generated mode when it
      is true. */
  datatype QuestionRequest = QuestionRequest(
    generate: Option<bool>, topic: Option<string>, questionType: Option<string>,
    questionText: Option<string>, correctAnswer: Option<string>, points: Option<int>,
    options: Option<seq<OptionEntry>>)

  /** What GPT-2 writes after each prompt of a generated question: after the
      question prompt, after the options prompt and after the reference-answer
      prompt. */
  datatype Generation = Generation(continuation: string, optionsContinuation: string,
                                   referenceContinuation: string)

  const QuestionAdded := "Question added successfully"
  const DefaultPoints := 1

  /** The 500 reply of the catch-all handler. */
  function AddQuestionError(detail: string): Reply {
    Reply(500, "Error adding question: " + detail)
  }

  predicate WantsGenerated(req: QuestionRequest) { req.generate == Some(true) }

  /** The rows a request adds. */
  datatype NewRows = NewRows(question: Question, options: seq<QuestionOption>)

  /** One option row per generated option, correct when its text equals the
      generated correct answer. */
  function GeneratedOptions(questionId: nat, options: seq<string>, correct: string)
    : (rows: seq<QuestionOption>)
    ensures |rows| == |options|
    ensures forall k :: 0 <= k < |rows| ==>
              && rows[k].questionId == questionId
              && rows[k].text == options[k]
              && (rows[k].isCorrect <==> options[k] == correct)
  {
    seq(|options|, k requires 0 <= k < |options| => QuestionOption(questionId, options[k], options[k] == correct))
  }

  /** The rows of a generated question: a multiple-choice question keeps its
      correct answer and gets its options; an essay keeps its reference answer
      as the correct answer and gets none. */
  function GeneratedRows(examId: nat, questionId: nat, points: int, q: GeneratedQuestion)
    : (rows: NewRows)
    ensures rows.question.examId == examId && rows.question.points == points
    ensures rows.question.text == q.text && rows.question.questionType == q.QuestionType()
    ensures q.MultipleChoice? ==>
              && rows.question.correctAnswer == Some(q.correctAnswer)
              && rows.options == GeneratedOptions(questionId, q.options, q.correctAnswer)
    ensures q.EssayQuestion? ==>
              rows.question.correctAnswer == Some(q.referenceAnswer) && rows.options == []
  {
    match q
    case MultipleChoice(text, options, correct) =>
      NewRows(Question(examId, text, MultipleChoiceType, Some(correct), points),
              GeneratedOptions(questionId, options, correct))
    case EssayQuestion(text, reference) =>
      NewRows(Question(examId, text, EssayType, Some(reference), points), [])
  }

  /** The manual option rows: `text` is required (a missing one raises the
      `KeyError` 'text'), `is_correct` defaults to false. */
  function ManualOptions(questionId: nat, entries: seq<OptionEntry>)
    : (r: Result<seq<QuestionOption>, string>)
    ensures r.Success? <==> forall k :: 0 <= k < |entries| ==> entries[k].text.Some?
    ensures r.Failure? ==> r.error == KeyErrorText("text")
    ensures r.Success? ==>
              && |r.value| == |entries|
              && forall k :: 0 <= k < |entries| ==>
                   r.value[k] == QuestionOption(questionId, entries[k].text.value,
                                                entries[k].isCorrect.GetOr(false))
  {
    if |entries| == 0 then Success([])
    else if entries[0].text.None? then Failure(KeyErrorText("text"))
    else
      var head := QuestionOption(questionId, entries[0].text.value, entries[0].isCorrect.GetOr(false));
      match ManualOptions(questionId, entries[1..])
      case Failure(e) => Failure(e)
      case Success(rest) => Success([head] + rest)
  }

  /** The rows of a manual question. `question_text` and `question_type` are
      read in that order; options are read only for a multiple-choice
      question. */
  function ManualRows(examId: nat, questionId: nat, req: QuestionRequest)
    : (r: Result<NewRows, string>)
    ensures req.questionText.None? ==> r == Failure(KeyErrorText("question_text"))
    ensures req.questionText.Some? && req.questionType.None? ==>
              r == Failure(KeyErrorText("question_type"))
    ensures r.Success? ==>
              && r.value.question == Question(examId, req.questionText.value, req.questionType.value,
                                              req.correctAnswer, req.points.GetOr(DefaultPoints))
              && (req.questionType.value != MultipleChoiceType ==> r.value.options == [])
              && (req.questionType.value == MultipleChoiceType ==>
                    ManualOptions(questionId, req.options.GetOr([])) == Success(r.value.options))
    ensures r.Failure? <==>
              || req.questionText.None? || req.questionType.None?
              || (req.questionType.value == MultipleChoiceType &&
                  ManualOptions(questionId, req.options.GetOr([])).Failure?)
  {
    if req.questionText.None? then Failure(KeyErrorText("question_text"))
    else if req.questionType.None? then Failure(KeyErrorText("question_type"))
    else
      var question := Question(examId, req.questionText.value, req.questionType.value,
                               req.correctAnswer, req.points.GetOr(DefaultPoints));
      if req.questionType.value != MultipleChoiceType then Success(NewRows(question, []))
      else
        match ManualOptions(questionId, req.options.GetOr([]))
        case Failure(e) => Failure(e)
        case Success(options) => Success(NewRows(question, options))
  }

  /** The question type a generated-mode request asks for. */
  function RequestedType(req: QuestionRequest): string {
    req.questionType.GetOr(MultipleChoiceType)
  }

  /** The post-processed generation for a request in generated mode. */
  function Generated(req: QuestionRequest, gen: Generation): Result<GeneratedQuestion, string>
    requires req.topic.Some?
  {
    GenerateQuestion(RequestedType(req), req.topic.value, gen.continuation,
                     gen.optionsContinuation, gen.referenceContinuation)
  }

  /** The rows of a generated question: `topic` is required, then the
      generator's own failure is passed on. */
  function GeneratedRowsFor(examId: nat, questionId: nat, req: QuestionRequest, gen: Generation)
    : (r: Result<NewRows, string>)
    ensures req.topic.None? ==> r == Failure(KeyErrorText("topic"))
    ensures r.Success? <==> req.topic.Some? && Generated(req, gen).Success?
    ensures req.topic.Some? && Generated(req, gen).Failure? ==> r == Failure(Generated(req, gen).error)
    ensures r.Success? ==>
              r.value == GeneratedRows(examId, questionId, req.points.GetOr(DefaultPoints),
                                       Generated(req, gen).value)
  {
    if req.topic.None? then Failure(KeyErrorText("topic"))
    else
      match Generated(req, gen)
      case Failure(e) => Failure(e)
      case Success(q) => Success(GeneratedRows(examId, questionId, req.points.GetOr(DefaultPoints), q))
  }

  /** The rows a request for an existing exam would add, or the text of the
      exception it raises. */
  function RowsFor(examId: nat, questionId: nat, req: QuestionRequest, gen: Generation)
    : Result<NewRows, string>
  {
    if WantsGenerated(req) then GeneratedRowsFor(examId, questionId, req, gen)
    else ManualRows(examId, questionId, req)
  }

  /** The question row an `add_question` call added. */
  function AddedQuestion(before: Store, after: Store): Question
    requires |before.questions| < |after.questions|
  {
    after.questions[|before.questions|]
  }

  /** The option rows an `add_question` call added. */
  function AddedOptions(before: Store, after: Store): seq<QuestionOption>
    requires |before.options| <= |after.options|
  {
    after.options[|before.options|..]
  }

  /** `add_question` as written. `get_or_404` runs inside the `try`, so the
      NotFound it raises for an unknown exam is caught by the catch-all handler
      and reported as a 500. Any exception rolls back: no row of the request
      persists. On success exactly one question is added, belonging to the
      exam, with points defaulting to 1, and every added option belongs to
      it. */
  function AddQuestion(store: Store, examId: int, req: QuestionRequest, gen: Generation)
    : (r: Outcome)
    ensures Lookup(store.exams, examId).None? ==>
              r == Unchanged(AddQuestionError(NotFoundText), store)
    ensures r.reply.status == 201 || r.reply.status == 500
    ensures r.reply.status == 500 ==> r.store == store
    ensures r.reply.status == 201 <==>
              Lookup(store.exams, examId).Some? &&
              RowsFor(examId as nat, NextId(store.questions), req, gen).Success?
    ensures r.reply.status == 201 ==>
              && r.reply.message == QuestionAdded
              && OnlyQuestionsGrew(store, r.store)
              && |r.store.questions| == |store.questions| + 1
              && AddedQuestion(store, r.store).examId == examId
              && AddedQuestion(store, r.store).points == req.points.GetOr(DefaultPoints)
              && (forall k :: |store.options| <= k < |r.store.options| ==>
                    r.store.options[k].questionId == NextId(store.questions))
  {
    if Lookup(store.exams, examId).None? then Unchanged(AddQuestionError(NotFoundText), store)
    else
      var questionId := NextId(store.questions);
      match RowsFor(examId as nat, questionId, req, gen)
      case Failure(e) => Unchanged(AddQuestionError(e), store)
      case Success(rows) =>
        assert forall k :: 0 <= k < |rows.options| ==> rows.options[k].questionId == questionId by {
          if WantsGenerated(req) {
            var q := Generated(req, gen).value;
          } else if req.questionType.value == MultipleChoiceType {
            var options := req.options.GetOr([]);
          }
        }
        Outcome(Reply(201, QuestionAdded),
                store.(questions := store.questions + [rows.question],
                       options := store.options + rows.options),
                None)
  }

  /** A manual question that succeeds stores the request's text, type and
      correct answer; it gets one option per entry, in order, exactly when it is
      multiple choice, each option correct only when the entry says so. */
  lemma ManualQuestionRows(store: Store, examId: int, req: QuestionRequest, gen: Generation)
    requires !WantsGenerated(req)
    ensures var r := AddQuestion(store, examId, req, gen);
            r.reply.status == 201 ==>
              var q := AddedQuestion(store, r.store);
              var added := AddedOptions(store, r.store);
              var entries := req.options.GetOr([]);
              && q.text == req.questionText.value
              && q.questionType == req.questionType.value
              && q.correctAnswer == req.correctAnswer
              && |added| == (if q.questionType == MultipleChoiceType then |entries| else 0)
              && (q.questionType == MultipleChoiceType ==>
                    forall k :: 0 <= k < |added| ==>
                      added[k].text == entries[k].text.value &&
                      added[k].isCorrect == entries[k].isCorrect.GetOr(false))
  {
    var r := AddQuestion(store, examId, req, gen);
    if r.reply.status == 201 {
      var rows := RowsFor(examId as nat, NextId(store.questions), req, gen).value;
      assert r.store.options == store.options + rows.options;
      assert AddedOptions(store, r.store) == rows.options;
    }
  }

  /** A manual multiple-choice question is accepted whatever its entries say
      about correctness, so one with no correct option at all is stored. */
  lemma ManualQuestionNeedsNoCorrectOption(store: Store, examId: int, text: string)
    requires Lookup(store.exams, examId).Some?
    ensures var req := QuestionRequest(None, None, Some(MultipleChoiceType), Some(text), None, None,
                                       Some([OptionEntry(Some("a"), None), OptionEntry(Some("b"), None)]));
            var r := AddQuestion(store, examId, req, Generation("", "", ""));
            && r.reply.status == 201
            && |AddedOptions(store, r.store)| == 2
            && forall k :: 0 <= k < 2 ==> !AddedOptions(store, r.store)[k].isCorrect
  {
    var req := QuestionRequest(None, None, Some(MultipleChoiceType), Some(text), None, None,
                               Some([OptionEntry(Some("a"), None), OptionEntry(Some("b"), None)]));
    ManualQuestionRows(store, examId, req, Generation("", "", ""));
  }

  /** A generated question that succeeds stores the generated text and type. A
      multiple-choice one gets one option per generated option, in order, each
      correct exactly when its text equals the generated correct answer, so the
      first is always correct; an essay stores its reference answer and gets no
      options. */
  lemma GeneratedQuestionRows(store: Store, examId: int, req: QuestionRequest, gen: Generation)
    requires WantsGenerated(req)
    ensures var r := AddQuestion(store, examId, req, gen);
            r.reply.status == 201 ==>
              var g := Generated(req, gen).value;
              var q := AddedQuestion(store, r.store);
              var added := AddedOptions(store, r.store);
              && q.text == g.text
              && q.questionType == g.QuestionType()
              && (g.MultipleChoice? ==>
                    && q.correctAnswer == Some(g.correctAnswer)
                    && |added| == |g.options| >= 1
                    && added[0].isCorrect
                    && forall k :: 0 <= k < |added| ==>
                         added[k].text == g.options[k] &&
                         (added[k].isCorrect <==> added[k].text == g.correctAnswer))
              && (g.EssayQuestion? ==> q.correctAnswer == Some(g.referenceAnswer) && added == [])
  {
    var r := AddQuestion(store, examId, req, gen);
    if r.reply.status == 201 {
      var rows := RowsFor(examId as nat, NextId(store.questions), req, gen).value;
      assert r.store.options == store.options + rows.options;
      assert AddedOptions(store, r.store) == rows.options;
    }
  }

  /** A generated question has the type the request asked for: multiple choice
      when it asked for multiple choice or named no type, essay otherwise. */
  lemma GeneratedTypeFollowsRequest(store: Store, examId: int, req: QuestionRequest, gen: Generation)
    requires WantsGenerated(req)
    ensures var r := AddQuestion(store, examId, req, gen);
            r.reply.status == 201 ==>
              AddedQuestion(store, r.store).questionType
              == (if req.questionType.None? || req.questionType == Some(MultipleChoiceType)
                  then MultipleChoiceType else EssayType)
  {
    GeneratedQuestionRows(store, examId, req, gen);
  }

  /** What `add_question` evidently intends for an unknown exam: the 404 of
      `get_or_404`, and otherwise the behaviour as written. */
  function AddQuestionIntended(store: Store, examId: int, req: QuestionRequest, gen: Generation)
    : (r: Outcome)
    ensures Lookup(store.exams, examId).None? <==> r.reply == NotFound
    ensures Lookup(store.exams, examId).None? ==> r.store == store
    ensures r.reply.status == 201 ==> OnlyQuestionsGrew(store, r.store)
    ensures r.reply.status != 201 ==> r.store == store
  {
    if Lookup(store.exams, examId).None? then Unchanged(NotFound, store)
    else AddQuestion(store, examId, req, gen)
  }

  /** As written, an unknown exam is reported as a server error wrapping the
      text of the 404, never as a 404. */
  lemma UnknownExamIsServerError(store: Store, req: QuestionRequest, gen: Generation)
    ensures var r := AddQuestion(store, |store.exams| + 1, req, gen);
            r.reply.status == 500 && r.reply != NotFound && r.store == store
  {
  }

  // ------------------------------------------------------------ get_exam_details

  /** The 1-based ids of the rows satisfying `p`, in increasing order. */
  function IdsWhere<T>(table: seq<T>, p: T -> bool): (ids: seq<nat>)
    ensures forall k :: 0 <= k < |ids| ==> 1 <= ids[k] <= |table| && p(table[ids[k] - 1])
    ensures forall k, l :: 0 <= k < l < |ids| ==> ids[k] < ids[l]
    ensures forall i :: 0 <= i < |table| && p(table[i]) ==> i + 1 in ids
  {
    if |table| == 0 then []
    else
      var front := table[..|table| - 1];
      var ids := IdsWhere(front, p);
      assert forall i :: 0 <= i < |front| ==> front[i] == table[i];
      if p(table[|table| - 1]) then ids + [|table|] else ids
  }

  /** Two tables whose rows agree on `p` have the same ids satisfying it. */
  lemma {:induction false} IdsWhereAgree<T, U>(t: seq<T>, p: T -> bool, u: seq<U>, q: U -> bool)
    requires |t| == |u|
    requires forall i :: 0 <= i < |t| ==> p(t[i]) == q(u[i])
    ensures IdsWhere(t, p) == IdsWhere(u, q)
  {
    if |t| > 0 {
      IdsWhereAgree(t[..|t| - 1], p, u[..|u| - 1], q);
    }
  }

  datatype OptionView = OptionView(id: nat, text: string)
  datatype QuestionView = QuestionView(id: nat, text: string, questionType: string, points: int,
                                       options: Option<seq<OptionView>>)
  datatype ExamView = ExamView(id: nat, title: string, description: string,
                               durationMinutes: int, questions: seq<QuestionView>)

  /** The ids of an exam's questions. */
  function QuestionIds(store: Store, examId: nat): seq<nat> {
    IdsWhere(store.questions, (q: Question) => q.examId == examId)
  }

  /** The ids of a question's options. */
  function OptionIds(store: Store, questionId: nat): seq<nat> {
    IdsWhere(store.options, (o: QuestionOption) => o.questionId == questionId)
  }

  /** The public face of a question's options: id and text. */
  function OptionViews(store: Store, questionId: nat): (views: seq<OptionView>)
    ensures |views| == |OptionIds(store, questionId)|
    ensures forall k :: 0 <= k < |views| ==>
              var id := OptionIds(store, questionId)[k];
              views[k] == OptionView(id, store.options[id - 1].text)
  {
    var ids := OptionIds(store, questionId);
    seq(|ids|, k requires 0 <= k < |ids| => OptionView(ids[k], store.options[ids[k] - 1].text))
  }

  /** One entry of the `questions` list; options only for multiple choice. */
  function QuestionViewOf(store: Store, id: nat): (v: QuestionView)
    requires 1 <= id <= |store.questions|
    ensures v.id == id
    ensures v.options.Some? <==> store.questions[id - 1].questionType == MultipleChoiceType
    ensures && v.text == store.questions[id - 1].text
            && v.questionType == store.questions[id - 1].questionType
            && v.points == store.questions[id - 1].points
    ensures v.options.Some? ==> v.options.value == OptionViews(store, id)
  {
    var q := store.questions[id - 1];
    QuestionView(id, q.text, q.questionType, q.points,
                 if q.questionType == MultipleChoiceType then Some(OptionViews(store, id)) else None)
  }

  /** The `questions` list of an exam: the view of each of its question ids. */
  function ExamQuestionViews(store: Store, examId: nat): (qs: seq<QuestionView>)
    ensures |qs| == |QuestionIds(store, examId)|
    ensures forall k :: 0 <= k < |qs| ==> qs[k] == QuestionViewOf(store, QuestionIds(store, examId)[k])
  {
    var ids := QuestionIds(store, examId);
    seq(|ids|, k requires 0 <= k < |ids| => QuestionViewOf(store, ids[k]))
  }

  /** The `questions` list holds every question of the exam exactly once, in id
      order, and lists options for the multiple-choice questions only. */
  lemma ExamQuestionsInOrder(store: Store, examId: nat)
    ensures var qs := ExamQuestionViews(store, examId);
            && (forall k, l :: 0 <= k < l < |qs| ==> qs[k].id < qs[l].id)
            && (forall k :: 0 <= k < |qs| ==>
                  1 <= qs[k].id <= |store.questions| && store.questions[qs[k].id - 1].examId == examId)
            && (forall k :: 0 <= k < |qs| ==>
                  (qs[k].options.Some? <==> qs[k].questionType == MultipleChoiceType))
  {
    var qs := ExamQuestionViews(store, examId);
    var ids := QuestionIds(store, examId);
    assert forall k :: 0 <= k < |qs| ==> qs[k].id == ids[k];
  }

  /** No question of the exam is left out of the list. */
  lemma ExamQuestionsComplete(store: Store, examId: nat, i: nat)
    requires i < |store.questions| && store.questions[i].examId == examId
    ensures var qs := ExamQuestionViews(store, examId);
            exists k :: 0 <= k < |qs| && qs[k].id == i + 1
  {
    var qs := ExamQuestionViews(store, examId);
    var ids := QuestionIds(store, examId);
    assert i + 1 in ids;
    var k :| 0 <= k < |ids| && ids[k] == i + 1;
    assert qs[k].id == i + 1;
  }

  /** `get_exam_details`. Here `get_or_404` is outside any `try`, so an unknown
      exam is a real 404; otherwise the exam's own fields and its questions. */
  function GetExamDetails(store: Store, examId: int): (r: Result<ExamView, Reply>)
    ensures r.Failure? <==> Lookup(store.exams, examId).None?
    ensures r.Failure? ==> r.error == NotFound
    ensures r.Success? ==>
              var exam := store.exams[examId - 1];
              && r.value.id == examId
              && r.value.title == exam.title
              && r.value.description == exam.description
              && r.value.durationMinutes == exam.durationMinutes
              && r.value.questions == ExamQuestionViews(store, examId)
  {
    if Lookup(store.exams, examId).None? then Failure(NotFound)
    else
      var exam := store.exams[examId - 1];
      Success(ExamView(examId as nat, exam.title, exam.description, exam.durationMinutes,
                       ExamQuestionViews(store, examId as nat)))
  }

  /** The database with every answer key blanked: no question has a correct
      answer and no option is marked correct. */
  function WithoutAnswerKeys(store: Store): (s: Store)
    ensures |s.questions| == |store.questions| && |s.options| == |store.options|
    ensures forall i :: 0 <= i < |s.questions| ==> s.questions[i].correctAnswer.None?
    ensures forall i :: 0 <= i < |s.options| ==> !s.options[i].isCorrect
  {
    store.(questions := seq(|store.questions|, i requires 0 <= i < |store.questions| =>
                              store.questions[i].(correctAnswer := None)),
           options := seq(|store.options|, i requires 0 <= i < |store.options| =>
                            store.options[i].(isCorrect := false)))
  }

  /** The details projection never depends on the answer key: blanking every
      correct answer and every `is_correct` flag leaves it unchanged. */
  lemma ExamDetailsHideAnswerKeys(store: Store, examId: int)
    ensures GetExamDetails(store, examId) == GetExamDetails(WithoutAnswerKeys(store), examId)
  {
    var blank := WithoutAnswerKeys(store);
    if Lookup(store.exams, examId).Some? {
      var id := examId as nat;
      IdsWhereAgree(store.questions, (q: Question) => q.examId == id,
                    blank.questions, (q: Question) => q.examId == id);
      assert QuestionIds(store, id) == QuestionIds(blank, id);
      var ids := QuestionIds(store, id);
      forall k | 0 <= k < |ids|
        ensures QuestionViewOf(store, ids[k]) == QuestionViewOf(blank, ids[k])
      {
        QuestionViewsAgree(store, ids[k]);
      }
      assert ExamQuestionViews(store, id) == ExamQuestionViews(blank, id);
    }
  }

  /** A single question's view is the same with the answer key blanked. */
  lemma QuestionViewsAgree(store: Store, id: nat)
    requires 1 <= id <= |store.questions|
    ensures QuestionViewOf(store, id) == QuestionViewOf(WithoutAnswerKeys(store), id)
  {
    var blank := WithoutAnswerKeys(store);
    assert forall i :: 0 <= i < |store.options| ==>
             blank.options[i] == store.options[i].(isCorrect := false);
    OptionViewsAgree(store, blank, id);
    assert blank.questions[id - 1] == store.questions[id - 1].(correctAnswer := None);
  }

  /** Option views only read option ids, question ids and texts. */
  lemma OptionViewsAgree(store: Store, other: Store, id: nat)
    requires |other.options| == |store.options|
    requires forall i :: 0 <= i < |store.options| ==>
               other.options[i].questionId == store.options[i].questionId &&
               other.options[i].text == store.options[i].text
    ensures OptionViews(store, id) == OptionViews(other, id)
  {
    IdsWhereAgree(store.options, (o: QuestionOption) => o.questionId == id,
                  other.options, (o: QuestionOption) => o.questionId == id);
    var ids := OptionIds(store, id);
    assert OptionIds(other, id) == ids;
    var a := OptionViews(store, id);
    var b := OptionViews(other, id);
    forall k | 0 <= k < |ids|
      ensures a[k] == b[k]
    {
    }
    assert a == b;
  }

  // ------------------------------------------------------------ update_user_role

  const RoleRequired := Reply(400, "Role is required")
  const InvalidRole := Reply(400, "Invalid role")
  const RoleUpdated := Reply(200, "User role updated successfully")

  /** The roles the update accepts. */
  predicate IsAssignableRole(role: string) { role == StudentRole || role == AdminRole }

  /** `update_user_role` as written. As in `add_question`, `get_or_404` runs
      inside the `try`, so an unknown user is a 500 wrapping the 404's text.
      A missing role and a role other than student or admin are 400s; every
      failure leaves the database unchanged. Success changes the role of that
      one user and nothing else. */
  function UpdateUserRole(store: Store, userId: int, role: Option<string>): (r: Outcome)
    ensures Lookup(store.users, userId).None? ==>
              r.reply == Reply(500, "Error updating user role: " + NotFoundText)
    ensures Lookup(store.users, userId).Some? && role.None? ==> r.reply == RoleRequired
    ensures Lookup(store.users, userId).Some? && role.Some? && !IsAssignableRole(role.value) ==>
              r.reply == InvalidRole
    ensures r.reply.status == 200 <==>
              Lookup(store.users, userId).Some? && role.Some? && IsAssignableRole(role.value)
    ensures r.reply.status != 200 ==> r.store == store
    ensures r.reply.status == 200 ==>
              && r.reply == RoleUpdated
              && r.store.(users := store.users) == store
              && |r.store.users| == |store.users|
              && r.store.users[userId - 1] == store.users[userId - 1].(role := role.value)
              && (forall i :: 0 <= i < |store.users| && i != userId - 1 ==>
                    r.store.users[i] == store.users[i])
  {
    if Lookup(store.users, userId).None? then
      Unchanged(Reply(500, "Error updating user role: " + NotFoundText), store)
    else if role.None? then Unchanged(RoleRequired, store)
    else if !IsAssignableRole(role.value) then Unchanged(InvalidRole, store)
    else
      var user := store.users[userId - 1];
      Outcome(RoleUpdated, store.(users := store.users[userId - 1 := user.(role := role.value)]), None)
  }

  /** What `update_user_role` evidently intends for an unknown user: the 404
      of `get_or_404`; otherwise the behaviour as written. */
  function UpdateUserRoleIntended(store: Store, userId: int, role: Option<string>): (r: Outcome)
    ensures Lookup(store.users, userId).None? <==> r.reply == NotFound
    ensures r.reply.status != 200 ==> r.store == store
    ensures r.reply.status == 200 <==>
              Lookup(store.users, userId).Some? && role.Some? && IsAssignableRole(role.value)
  {
    if Lookup(store.users, userId).None? then Unchanged(NotFound, store)
    else UpdateUserRole(store, userId, role)
  }

  /** As written, an unknown user is reported as a server error, never as a
      404. */
  lemma UnknownUserIsServerError(store: Store, role: Option<string>)
    ensures var r := UpdateUserRole(store, |store.users| + 1, role);
            r.reply.status == 500 && r.reply != NotFound && r.store == store
  {
  }

  // ------------------------------------------------------------ the admin gate

  /** What an admin request gets back: the gate's or the call's refusal, which
      stores nothing, or what the view produced. */
  datatype Answered<T> = Refused(reply: Reply) | Served(response: T)

  /** An admin request as written. `admin_required` calls the view as
      `f(current_user, *args, **kwargs)`, but none of the admin views takes a
      user parameter, so once access is granted the call itself raises
      `TypeError` before any line of the view runs. Nothing catches it: a 500,
      and nothing is stored. */
  function GatedAsWritten<T>(access: Auth.Access): (r: Answered<T>)
    ensures r.Refused?
    ensures access.Denied? ==> r.reply == access.reply
    ensures access.Granted? ==> r.reply == InternalError
  {
    match access
    case Denied(reply) => Refused(reply)
    case Granted(_, _) => Refused(InternalError)
  }

  /** An admin request as evidently intended: a granted request is served by
      the view, called with its URL arguments. */
  function Gated<T>(access: Auth.Access, view: T): (r: Answered<T>)
    ensures r.Served? <==> access.Granted?
    ensures r.Served? ==> r.response == view
    ensures r.Refused? ==> r.reply == access.reply
  {
    match access
    case Denied(reply) => Refused(reply)
    case Granted(_, _) => Served(view)
  }

  /** The written and the intended wiring agree exactly on the requests the
      gate refuses: every request it grants is answered differently. */
  lemma GatedAsWrittenDiffersIffGranted<T>(access: Auth.Access, view: T)
    ensures GatedAsWritten<T>(access) == Gated(access, view) <==> access.Denied?
  {
  }

  /** As written, a complete `create_exam` request from an admin is a 500 that
      stores nothing, where the view's body would have created the exam. */
  lemma AdminCreateExamIsServerError(header: Option<string>, decode: string -> Auth.Decoded,
                                     store: Store, title: string, duration: int, now: Time)
    requires Auth.AdminRequired(header, decode, store.users).Granted?
    ensures var access := Auth.AdminRequired(header, decode, store.users);
            var view := CreateExam(store, ExamRequest(Some(title), None, Some(duration)), now);
            && GatedAsWritten<Outcome>(access) == Refused(InternalError)
            && Gated(access, view) == Served(view)
            && view.reply.status == 201
            && |view.store.exams| == |store.exams| + 1
  {
  }

  // ---------------------------------------------------------------- invariants

  /** Every admin route keeps the database's constraints. */
  lemma CreateExamKeepsStoreValid(store: Store, req: ExamRequest, now: Time)
    requires Valid(store)
    ensures Valid(CreateExam(store, req, now).store)
  {
  }

  lemma AddQuestionKeepsStoreValid(store: Store, examId: int, req: QuestionRequest, gen: Generation)
    requires Valid(store)
    ensures Valid(AddQuestion(store, examId, req, gen).store)
  {
    var r := AddQuestion(store, examId, req, gen);
    if r.reply.status == 201 {
      assert forall i :: 0 <= i < |store.questions| ==> r.store.questions[i] == store.questions[i];
      assert forall i :: 0 <= i < |store.options| ==> r.store.options[i] == store.options[i];
    }
  }

  lemma UpdateUserRoleKeepsStoreValid(store: Store, userId: int, role: Option<string>)
    requires Valid(store)
    ensures Valid(UpdateUserRole(store, userId, role).store)
  {
  }
}

=== FILE: auth.dfy ===
/** Credential validation, registration and the two access-control decorators
    of `utils/auth.py`. JWT decoding and password hashing are foreign calls and
    arrive as function parameters. */
module Auth {
  import opened Wrappers
  import opened Text
  import opened Models
  import opened Http

  /** The `(is_valid, message)` pair every validator returns. */
  datatype Verdict = Verdict(ok: bool, message: string)

  // ---------------------------------------------------------------------------
  // Password strength

  const MinPasswordLength := 8
  const PasswordTooShort := "Password must be at least 8 characters long"
  const PasswordNoDigit := "Password must contain at least one number"
  const PasswordNoUpper := "Password must contain at least one uppercase letter"
  const PasswordNoLower := "Password must contain at least one lowercase letter"
  const PasswordValid := "Password is valid"

  predicate HasDigit(p: string) { exists i :: 0 <= i < |p| && IsDigit(p[i]) }
  predicate HasUpper(p: string) { exists i :: 0 <= i < |p| && IsUpper(p[i]) }
  predicate HasLower(p: string) { exists i :: 0 <= i < |p| && IsLower(p[i]) }

  /** The strength policy: at least eight characters, a digit, an upper-case
      and a lower-case letter. */
  predicate IsStrongPassword(p: string) {
    |p| >= MinPasswordLength && HasDigit(p) && HasUpper(p) && HasLower(p)
  }

  /** `validate_password`: the rules are checked in a fixed order (length, digit,
      upper case, lower case) and the message names the first one broken. */
  function ValidatePassword(password: string): (r: Verdict)
    ensures r.ok <==> IsStrongPassword(password)
    ensures |password| < MinPasswordLength ==> r == Verdict(false, PasswordTooShort)
    ensures |password| >= MinPasswordLength && !HasDigit(password)
            ==> r == Verdict(false, PasswordNoDigit)
    ensures |password| >= MinPasswordLength && HasDigit(password) && !HasUpper(password)
            ==> r == Verdict(false, PasswordNoUpper)
    ensures |password| >= MinPasswordLength && HasDigit(password) && HasUpper(password)
            && !HasLower(password)
            ==> r == Verdict(false, PasswordNoLower)
    ensures r.ok ==> r.message == PasswordValid
  {
    if |password| < MinPasswordLength then Verdict(false, PasswordTooShort)
    else if !Any(password, IsDigit) then Verdict(false, PasswordNoDigit)
    else if !Any(password, IsUpper) then Verdict(false, PasswordNoUpper)
    else if !Any(password, IsLower) then Verdict(false, PasswordNoLower)
    else Verdict(true, PasswordValid)
  }

  /** A three-letter password fails on length; "Abcd1234" passes every
      rule. */
  lemma PasswordExamples()
    ensures ValidatePassword("abc") == Verdict(false, PasswordTooShort)
    ensures ValidatePassword("Abcd1234") == Verdict(true, PasswordValid)
  {
    var good := "Abcd1234";
    assert IsDigit(good[4]) && IsUpper(good[0]) && IsLower(good[1]);
  }

  // ---------------------------------------------------------------------------
  // E-mail format

  const InvalidEmailFormat := "Invalid email format"
  const EmailAlreadyRegistered := "Email already registered"
  const EmailValid := "Email is valid"

  /** `[a-zA-Z0-9._%+-]` */
  predicate IsLocalChar(c: char) {
    IsLetter(c) || IsDigit(c) || c == '.' || c == '_' || c == '%' || c == '+' || c == '-'
  }

  /** `[a-zA-Z0-9.-]` */
  predicate IsDomainChar(c: char) {
    IsLetter(c) || IsDigit(c) || c == '.' || c == '-'
  }

  /** `e` matches `^[a-zA-Z0-9._%+-]+@[a-zA-Z0-9.-]+\.[a-zA-Z]{2,}$` with the
      `@` at position `at` and the dot before the top-level domain at `dot`. */
  predicate EmailPartsAt(e: string, at: int, dot: int) {
    && 0 < at && at + 1 < dot && dot + 3 <= |e|
    && (forall i :: 0 <= i < at ==> IsLocalChar(e[i]))
    && e[at] == '@'
    && (forall i :: at < i < dot ==> IsDomainChar(e[i]))
    && e[dot] == '.'
    && (forall i :: dot < i < |e| ==> IsLetter(e[i]))
  }

  /** The pattern of `validate_email`, read as a regular expression: some
      choice of `@` and final dot splits the address into its three parts. */
  ghost predicate MatchesEmailPattern(e: string) {
    exists at, dot :: EmailPartsAt(e, at, dot)
  }

  /** The matcher: the local part ends at the first `@` (the local class has no
      `@`), and the top-level domain starts after the last dot (letters are
      not dots). */
  function IsWellFormedEmail(e: string): bool {
    match IndexOf(e, '@')
    case None => false
    case Some(at) =>
      var domain := e[at + 1..];
      && at > 0
      && All(e[..at], IsLocalChar)
      && All(domain, IsDomainChar)
      && match LastIndexOf(domain, '.')
         case None => false
         case Some(d) => d > 0 && d + 3 <= |domain| && All(domain[d + 1..], IsLetter)
  }

  /** The matcher accepts exactly the addresses the pattern describes. */
  lemma EmailMatcherIsPattern(e: string)
    ensures IsWellFormedEmail(e) <==> MatchesEmailPattern(e)
  {
    if IsWellFormedEmail(e) {
      EmailMatcherSound(e);
    }
    if MatchesEmailPattern(e) {
      var at, dot :| EmailPartsAt(e, at, dot);
      EmailMatcherComplete(e, at, dot);
    }
  }

  /** What the matcher accepts has the shape of the pattern. */
  lemma EmailMatcherSound(e: string)
    requires IsWellFormedEmail(e)
    ensures MatchesEmailPattern(e)
  {
    var at := IndexOf(e, '@').value;
    var domain := e[at + 1..];
    var d := LastIndexOf(domain, '.').value;
    assert domain[d] == '.';
    EmailPartsFromSlices(e, at, at + 1 + d);
  }

  /** The slice-wise facts the matcher checks are the index-wise facts of the
      pattern. */
  lemma EmailPartsFromSlices(e: string, at: nat, dot: nat)
    requires 0 < at && at + 1 < dot && dot + 3 <= |e|
    requires e[at] == '@' && e[dot] == '.'
    requires All(e[..at], IsLocalChar)
    requires All(e[at + 1..], IsDomainChar)
    requires All(e[dot + 1..], IsLetter)
    ensures EmailPartsAt(e, at, dot)
  {
    assert e[..at] == e[0..at];
    AllOnRange(e, 0, at, IsLocalChar);
    assert e[at + 1..] == e[at + 1..|e|];
    AllOnRange(e, at + 1, |e|, IsDomainChar);
    assert e[dot + 1..] == e[dot + 1..|e|];
    AllOnRange(e, dot + 1, |e|, IsLetter);
  }

  /** Any split that fits the pattern is the one the matcher finds: the first
      `@` and the last dot. */
  lemma EmailMatcherComplete(e: string, at: int, dot: int)
    requires EmailPartsAt(e, at, dot)
    ensures IsWellFormedEmail(e)
  {
    PatternAtIsFirstAt(e, at, dot);
    PatternDotIsLastDot(e, at, dot);
    var domain := e[at + 1..];
    var d := dot - at - 1;
    assert All(e[..at], IsLocalChar) by {
      assert e[..at] == e[0..at];
      AllOnRange(e, 0, at, IsLocalChar);
    }
    assert All(domain, IsDomainChar) by {
      assert domain == e[at + 1..|e|];
      AllOnRange(e, at + 1, |e|, IsDomainChar);
    }
    assert All(domain[d + 1..], IsLetter) by {
      assert domain[d + 1..] == e[dot + 1..|e|];
      AllOnRange(e, dot + 1, |e|, IsLetter);
    }
  }

  /** The `@` of a pattern split is the first `@` of the address. */
  lemma PatternAtIsFirstAt(e: string, at: int, dot: int)
    requires EmailPartsAt(e, at, dot)
    ensures IndexOf(e, '@') == Some(at)
  {
    assert '@' in e by { assert e[at] == '@'; }
  }

  /** The dot of a pattern split is the last dot after the `@`. */
  lemma PatternDotIsLastDot(e: string, at: int, dot: int)
    requires EmailPartsAt(e, at, dot)
    ensures LastIndexOf(e[at + 1..], '.') == Some(dot - at - 1)
  {
    var domain := e[at + 1..];
    var dd := dot - at - 1;
    assert domain[dd] == e[dot];
    assert '.' in domain;
  }

  /** Some account already uses this e-mail address (`filter_by(email=...)`). */
  predicate EmailTaken(users: seq<User>, email: string) {
    exists i :: 0 <= i < |users| && users[i].email == email
  }

  /** Some account already uses this username (`filter_by(username=...)`). */
  predicate UsernameTaken(users: seq<User>, username: string) {
    exists i :: 0 <= i < |users| && users[i].username == username
  }

  /** `validate_email`: a malformed address is refused before the store is
      looked at; a well-formed one is refused if an account already has it. */
  function ValidateEmail(users: seq<User>, email: string): (r: Verdict)
    ensures !MatchesEmailPattern(email) ==> r == Verdict(false, InvalidEmailFormat)
    ensures MatchesEmailPattern(email) && EmailTaken(users, email)
            ==> r == Verdict(false, EmailAlreadyRegistered)
    ensures r.ok <==> MatchesEmailPattern(email) && !EmailTaken(users, email)
    ensures r.ok ==> r.message == EmailValid
  {
    EmailMatcherIsPattern(email);
    if !IsWellFormedEmail(email) then Verdict(false, InvalidEmailFormat)
    else if EmailTaken(users, email) then Verdict(false, EmailAlreadyRegistered)
    else Verdict(true, EmailValid)
  }

  // ---------------------------------------------------------------------------
  // Registration

  const UsernameAlreadyExists := "Username already exists"
  const UserCreated := "User created successfully"

  /** The reply of `create_user` and the store it leaves behind. */
  datatype Registration = Registration(verdict: Verdict, store: Store)

  /** Everything `create_user` checks, in the order it checks it. */
  ghost predicate AcceptsRegistration(users: seq<User>, username: string, email: string,
                                      password: string)
  {
    MatchesEmailPattern(email) && !EmailTaken(users, email)
    && IsStrongPassword(password) && !UsernameTaken(users, username)
  }

  /** `create_user`: e-mail first, then password, then username; the first
      failure is reported and nothing is stored. On success exactly one account
      is appended, holding the hash of the password and the role, which
      defaults to student. */
  function CreateUser(store: Store, username: string, email: string, password: string,
                      role: Option<string>, hashOf: string -> string, now: Time)
    : (r: Registration)
    ensures !MatchesEmailPattern(email) ==> r.verdict == Verdict(false, InvalidEmailFormat)
    ensures MatchesEmailPattern(email) && EmailTaken(store.users, email)
            ==> r.verdict == Verdict(false, EmailAlreadyRegistered)
    ensures MatchesEmailPattern(email) && !EmailTaken(store.users, email)
            && !IsStrongPassword(password)
            ==> r.verdict == ValidatePassword(password) && !r.verdict.ok
    ensures MatchesEmailPattern(email) && !EmailTaken(store.users, email)
            && IsStrongPassword(password) && UsernameTaken(store.users, username)
            ==> r.verdict == Verdict(false, UsernameAlreadyExists)
    ensures r.verdict.ok <==> AcceptsRegistration(store.users, username, email, password)
    ensures !r.verdict.ok ==> r.store == store
    ensures r.verdict.ok ==>
              && r.verdict.message == UserCreated
              && |r.store.users| == |store.users| + 1
              && r.store.users[..|store.users|] == store.users
              && r.store.users[|store.users|].username == username
              && r.store.users[|store.users|].email == email
              && r.store.users[|store.users|].passwordHash == hashOf(password)
              && r.store.users[|store.users|].role == (if role.Some? then role.value else StudentRole)
              && r.store == r.store.(users := store.users + [r.store.users[|store.users|]])
  {
    var emailCheck := ValidateEmail(store.users, email);
    var passwordCheck := ValidatePassword(password);
    if !emailCheck.ok then Registration(emailCheck, store)
    else if !passwordCheck.ok then Registration(passwordCheck, store)
    else if UsernameTaken(store.users, username) then
      Registration(Verdict(false, UsernameAlreadyExists), store)
    else
      var user := User(username, email, hashOf(password), role.GetOr(StudentRole), now);
      Registration(Verdict(true, UserCreated), store.(users := store.users + [user]))
  }

  /** Registration keeps usernames and e-mail addresses unique, and touches no
      other table. */
  lemma CreateUserKeepsStoreValid(store: Store, username: string, email: string,
                                  password: string, role: Option<string>,
                                  hashOf: string -> string, now: Time)
    requires Valid(store)
    ensures Valid(CreateUser(store, username, email, password, role, hashOf, now).store)
  {
    var r := CreateUser(store, username, email, password, role, hashOf, now);
    if r.verdict.ok {
      var users := r.store.users;
      var n := |store.users|;
      assert forall i :: 0 <= i < n ==> users[i] == store.users[i];
      forall i, j | 0 <= i < j < |users|
        ensures users[i].username != users[j].username && users[i].email != users[j].email
      {
        if j == n {
          assert store.users[i].username != username;
          assert store.users[i].email != email;
        }
      }
    }
  }

  /** After a successful registration, registering again with the same e-mail
      address, or with the same username, fails. */
  lemma RegisteringTwiceFails(store: Store, username: string, email: string,
                              password: string, role: Option<string>,
                              hashOf: string -> string, now: Time,
                              username2: string, email2: string, password2: string,
                              role2: Option<string>, now2: Time)
    requires CreateUser(store, username, email, password, role, hashOf, now).verdict.ok
    ensures var s := CreateUser(store, username, email, password, role, hashOf, now).store;
            && CreateUser(s, username2, email, password2, role2, hashOf, now2).verdict
               == Verdict(false, EmailAlreadyRegistered)
            && !CreateUser(s, username, email2, password2, role2, hashOf, now2).verdict.ok
  {
    var s := CreateUser(store, username, email, password, role, hashOf, now).store;
    var n := |store.users|;
    assert s.users[n].email == email;
    assert s.users[n].username == username;
    assert EmailTaken(s.users, email);
    assert UsernameTaken(s.users, username);
  }

  // ---------------------------------------------------------------------------
  // Access control

  /** What the JWT decoder makes of a token: the `sub` claim, or the message of
      an expired or invalid token. */
  datatype Decoded = Subject(userId: int) | Rejected(message: string)

  /** The decorators' verdict: the wrapped handler runs with the user, or the
      request is answered with an error. */
  datatype Access = Granted(userId: int, user: User) | Denied(reply: Reply)

  const TokenMissing := Reply(401, "Token is missing")
  const UserNotFound := Reply(401, "User not found")
  const AdminPrivilegesRequired := Reply(403, "Admin privileges required")

  /** The token of an `Authorization` header: `header.split(" ")[1]`, absent
      when the header holds no space. */
  function BearerToken(header: string): (t: Option<string>)
    ensures t.Some? <==> ' ' in header
    ensures t.Some? ==> ' ' !in t.value
    ensures t.Some? ==>
              exists k :: 0 <= k < |header| && header[k] == ' ' && ' ' !in header[..k]
                          && k + 1 + |t.value| <= |header|
                          && header[k + 1..][..|t.value|] == t.value
                          && (k + 1 + |t.value| == |header| || header[k + 1 + |t.value|] == ' ')
  {
    var parts := Split(header, ' ');
    SplitHead(header, ' ');
    if |parts| < 2 then None
    else
      var k := |parts[0]|;
      var rest := header[k + 1..];
      SplitHead(rest, ' ');
      assert parts[1] == Split(rest, ' ')[0];
      assert header[..k] == parts[0];
      assert header[k + 1..][..|parts[1]|] == parts[1];
      Some(parts[1])
  }

  /** The token a request presents: absent when there is no header, when the
      header has no second field, or when that field is empty. */
  function PresentedToken(header: Option<string>): Option<string> {
    match header
    case None => None
    case Some(h) =>
      match BearerToken(h)
      case None => None
      case Some(t) => if t == "" then None else Some(t)
  }

  /** `token_required`: any request without a usable token, with a token the
      decoder rejects, or naming an unknown user gets 401; otherwise the
      handler runs with that user. */
  function TokenRequired(header: Option<string>, decode: string -> Decoded, users: seq<User>)
    : (r: Access)
    ensures header.None? ==> r == Denied(TokenMissing)
    ensures header.Some? && ' ' !in header.value ==> r == Denied(TokenMissing)
    ensures PresentedToken(header).None? ==> r == Denied(TokenMissing)
    ensures PresentedToken(header).Some? && decode(PresentedToken(header).value).Rejected? ==>
              r == Denied(Reply(401, decode(PresentedToken(header).value).message))
    ensures PresentedToken(header).Some? && decode(PresentedToken(header).value).Subject?
            && !(1 <= decode(PresentedToken(header).value).userId <= |users|) ==>
              r == Denied(UserNotFound)
    ensures r.Granted? <==>
              && PresentedToken(header).Some?
              && decode(PresentedToken(header).value).Subject?
              && 1 <= decode(PresentedToken(header).value).userId <= |users|
    ensures r.Granted? ==> r.userId == decode(PresentedToken(header).value).userId
                           && r.user == users[r.userId - 1]
    ensures r.Denied? ==> r.reply.status == 401
  {
    match header
    case None => Denied(TokenMissing)
    case Some(h) =>
      match BearerToken(h)
      case None => Denied(TokenMissing)
      case Some(token) =>
        if token == "" then Denied(TokenMissing)
        else
          match decode(token)
          case Rejected(message) => Denied(Reply(401, message))
          case Subject(id) =>
            match Lookup(users, id)
            case None => Denied(UserNotFound)
            case Some(user) => Granted(id, user)
  }

  /** `admin_required`: the checks of `token_required`, and then a known user
      whose role is not admin gets 403. Only an admin reaches the handler. */
  function AdminRequired(header: Option<string>, decode: string -> Decoded, users: seq<User>)
    : (r: Access)
    ensures header.None? ==> r == Denied(TokenMissing)
    ensures header.Some? && ' ' !in header.value ==> r == Denied(TokenMissing)
    ensures PresentedToken(header).None? ==> r == Denied(TokenMissing)
    ensures PresentedToken(header).Some? && decode(PresentedToken(header).value).Rejected? ==>
              r == Denied(Reply(401, decode(PresentedToken(header).value).message))
    ensures PresentedToken(header).Some? && decode(PresentedToken(header).value).Subject?
            && !(1 <= decode(PresentedToken(header).value).userId <= |users|) ==>
              r == Denied(UserNotFound)
    ensures r.Granted? <==>
              && PresentedToken(header).Some?
              && decode(PresentedToken(header).value).Subject?
              && 1 <= decode(PresentedToken(header).value).userId <= |users|
              && users[decode(PresentedToken(header).value).userId - 1].role == AdminRole
    ensures r == Denied(AdminPrivilegesRequired) <==>
              && PresentedToken(header).Some?
              && decode(PresentedToken(header).value).Subject?
              && 1 <= decode(PresentedToken(header).value).userId <= |users|
              && users[decode(PresentedToken(header).value).userId - 1].role != AdminRole
    ensures r.Granted? ==> r.user.role == AdminRole && 1 <= r.userId <= |users|
                           && r.user == users[r.userId - 1]
    ensures r.Denied? ==> r.reply.status == 401 || r.reply == AdminPrivilegesRequired
  {
    match header
    case None => Denied(TokenMissing)
    case Some(h) =>
      match BearerToken(h)
      case None => Denied(TokenMissing)
      case Some(token) =>
        if token == "" then Denied(TokenMissing)
        else
          match decode(token)
          case Rejected(message) => Denied(Reply(401, message))
          case Subject(id) =>
            match Lookup(users, id)
            case None => Denied(UserNotFound)
            case Some(user) =>
              if user.role != AdminRole then Denied(AdminPrivilegesRequired)
              else Granted(id, user)
  }

  /** The admin gate refines the token gate: it admits exactly the users the
      token gate admits whose role is admin, and otherwise refuses as the token
      gate does, except that a known non-admin gets 403. */
  lemma AdminGateRefinesTokenGate(header: Option<string>, decode: string -> Decoded,
                                  users: seq<User>)
    ensures var t := TokenRequired(header, decode, users);
            var a := AdminRequired(header, decode, users);
            && (a.Granted? <==> t.Granted? && t.user.role == AdminRole)
            && (a.Granted? ==> a == t)
            && (t.Denied? ==> a == t)
            && (t.Granted? && t.user.role != AdminRole ==> a == Denied(AdminPrivilegesRequired))
  {
  }

  /** `create_user` stores whatever role it is given: anyone able to register
      can create an admin account, which the admin gate then admits. */
  lemma SelfRegisteredAdminPassesAdminGate(store: Store, username: string, email: string,
                                           password: string, hashOf: string -> string,
                                           now: Time, header: Option<string>,
                                           decode: string -> Decoded)
    requires AcceptsRegistration(store.users, username, email, password)
    requires PresentedToken(header).Some?
    requires decode(PresentedToken(header).value) == Subject(|store.users| + 1)
    ensures var r := CreateUser(store, username, email, password, Some(AdminRole), hashOf, now);
            && r.verdict.ok
            && AdminRequired(header, decode, r.store.users).Granted?
  {
  }
}

=== FILE: essay_grader.dfy ===
/** The deterministic part of `EssayGrader`: turning the classifier's class
    index into a score and building the feedback text. The BERT forward pass and
    its argmax are an oracle that supplies the class index. */
module EssayGrader {
  import opened Text

  /** The classifier is built with five labels: a five-point scale. */
  const NumLabels := 5

  // The templates are written as concatenations of short literals so that the
  // verifier can look inside them.
  const ExcellentFeedback := "Excellent work! Your essay "
                             + "demonstrates comprehensive "
                             + "understanding and excellent "
                             + "articulation."
  const GoodFeedback := "Good work! Your essay shows "
                        + "strong understanding with some "
                        + "room for improvement."
  const SatisfactoryFeedback := "Satisfactory work. Your essay "
                                + "demonstrates basic understanding "
                                + "but needs more detail."
  const BelowAverageFeedback := "Below average. Your essay needs "
                                + "significant improvement in "
                                + "content and structure."
  const NeedsImprovementFeedback := "Needs improvement. Please "
                                    + "review the topic and try again."
  const InvalidScoreFeedback := "Invalid score"

  const ExpandSuggestion := "Consider expanding your "
                            + "response with more details."
  const KeyConceptsLead := "Consider incorporating these key concepts: "
  const SuggestionsHeading := "Specific suggestions:"
  const Bullet := "- "
  const MaxKeyTerms := 3

  /** The score `grade_essay` reports: the predicted class index (0 to 4)
      plus one. */
  function PredictedScore(classIndex: nat): (score: int)
    requires classIndex < NumLabels
    ensures 1 <= score <= NumLabels
    ensures score == classIndex + 1
  {
    classIndex + 1
  }

  /** The feedback template for a score; anything outside 1..5 gets
      "Invalid score". */
  function BaseFeedback(score: int): (text: string)
    ensures text == InvalidScoreFeedback <==> !(1 <= score <= NumLabels)
  {
    if score == 5 then ExcellentFeedback
    else if score == 4 then GoodFeedback
    else if score == 3 then SatisfactoryFeedback
    else if score == 2 then BelowAverageFeedback
    else if score == 1 then NeedsImprovementFeedback
    else InvalidScoreFeedback
  }

  /** Every template is a single line. */
  lemma BaseFeedbackIsOneLine(score: int)
    ensures '\n' !in BaseFeedback(score)
  {
    if score == 5 {
      ExcellentIsOneLine();
    } else if score == 4 {
      GoodIsOneLine();
    } else if score == 3 {
      SatisfactoryIsOneLine();
    } else if score == 2 {
      BelowAverageIsOneLine();
    } else if score == 1 {
      NeedsImprovementIsOneLine();
    }
  }

  lemma ExcellentIsOneLine() ensures '\n' !in ExcellentFeedback {}
  lemma GoodIsOneLine() ensures '\n' !in GoodFeedback {}
  lemma SatisfactoryIsOneLine() ensures '\n' !in SatisfactoryFeedback {}
  lemma BelowAverageIsOneLine() ensures '\n' !in BelowAverageFeedback {}
  lemma NeedsImprovementIsOneLine() ensures '\n' !in NeedsImprovementFeedback {}

  /** Different scores on the scale get different templates. */
  lemma BaseFeedbackIsInjective(a: int, b: int)
    requires 1 <= a <= NumLabels && 1 <= b <= NumLabels && a != b
    ensures BaseFeedback(a) != BaseFeedback(b)
  {
    assert ExcellentFeedback[0] == 'E' && GoodFeedback[0] == 'G' && SatisfactoryFeedback[0] == 'S';
    assert BelowAverageFeedback[0] == 'B' && NeedsImprovementFeedback[0] == 'N';
  }

  /** The essay has fewer than half as many words as the reference
      (`len(essay.split()) < len(reference.split()) * 0.5`, in integers). */
  predicate IsTooShort(essay: string, reference: string) {
    2 * |Words(essay)| < |Words(reference)|
  }

  /** The lower-cased words of a text, as a set. */
  function WordSet(s: string): set<string> {
    set w | w in Words(Lower(s))
  }

  /** Reference words that the essay never uses, compared lower-cased. */
  function MissingTerms(essay: string, reference: string): set<string> {
    WordSet(reference) - WordSet(essay)
  }

  /** `list(missing_key_terms)`: Python lists a set in an order it does not
      specify, so the order is a parameter. A listing holds every element of
      the set exactly once. */
  predicate IsListing(listing: seq<string>, terms: set<string>) {
    && (forall i, j :: 0 <= i < j < |listing| ==> listing[i] != listing[j])
    && (forall i :: 0 <= i < |listing| ==> listing[i] in terms)
    && (forall t :: t in terms ==> t in listing)
  }

  /** The terms quoted in the key-concepts suggestion: the first three of the
      listing. */
  function KeyTerms(listing: seq<string>): seq<string> {
    if |listing| <= MaxKeyTerms then listing else listing[..MaxKeyTerms]
  }

  /** The key-concepts suggestion quoting the given terms. */
  function KeyConceptsSuggestion(terms: seq<string>): string {
    KeyConceptsLead + Join(terms, ", ")
  }

  /** The suggestions `generate_feedback` collects, in order: the length hint,
      then the key-concepts hint. */
  function Suggestions(essay: string, reference: string, listing: seq<string>)
    : (points: seq<string>)
    requires IsListing(listing, MissingTerms(essay, reference))
    ensures ExpandSuggestion in points <==> IsTooShort(essay, reference)
    ensures KeyConceptsSuggestion(KeyTerms(listing)) in points
            <==> MissingTerms(essay, reference) != {}
    ensures points == [] <==> !IsTooShort(essay, reference) && MissingTerms(essay, reference) == {}
    ensures |points| <= 2
    ensures |points| == 2 ==> points == [ExpandSuggestion, KeyConceptsSuggestion(KeyTerms(listing))]
    ensures forall k :: 0 <= k < |points| ==>
              points[k] == ExpandSuggestion || points[k] == KeyConceptsSuggestion(KeyTerms(listing))
  {
    ListingIsEmptyIffNoTerms(listing, MissingTerms(essay, reference));
    TwoDistinctSuggestions(KeyTerms(listing));
    (if IsTooShort(essay, reference) then [ExpandSuggestion] else [])
    + (if |listing| > 0 then [KeyConceptsSuggestion(KeyTerms(listing))] else [])
  }

  /** A listing is empty exactly when the set it lists is. */
  lemma ListingIsEmptyIffNoTerms(listing: seq<string>, terms: set<string>)
    requires IsListing(listing, terms)
    ensures terms != {} <==> |listing| > 0
  {
    if terms != {} {
      var t :| t in terms;
      assert t in listing;
    }
    if |listing| > 0 {
      assert listing[0] in terms;
    }
  }

  /** The two suggestions never coincide. */
  lemma TwoDistinctSuggestions(terms: seq<string>)
    ensures ExpandSuggestion != KeyConceptsSuggestion(terms)
  {
    assert ExpandSuggestion[10] != KeyConceptsSuggestion(terms)[10];
  }

  /** The quoted terms are at most three distinct missing words, and as many as
      the listing allows. */
  lemma KeyTermsAreMissingWords(essay: string, reference: string, listing: seq<string>)
    requires IsListing(listing, MissingTerms(essay, reference))
    ensures |KeyTerms(listing)| <= MaxKeyTerms
    ensures |KeyTerms(listing)| == if |listing| < MaxKeyTerms then |listing| else MaxKeyTerms
    ensures forall k :: 0 <= k < |KeyTerms(listing)| ==>
              KeyTerms(listing)[k] in MissingTerms(essay, reference)
              && KeyTerms(listing)[k] !in WordSet(essay)
              && KeyTerms(listing)[k] in WordSet(reference)
    ensures forall i, j :: 0 <= i < j < |KeyTerms(listing)| ==>
              KeyTerms(listing)[i] != KeyTerms(listing)[j]
  {
  }

  /** `generate_feedback`: the template for the score, followed, when there is
      at least one suggestion, by a "Specific suggestions" block. */
  function GenerateFeedback(score: int, essay: string, reference: string,
                            listing: seq<string>): (feedback: string)
    requires IsListing(listing, MissingTerms(essay, reference))
    ensures BaseFeedback(score) <= feedback
    ensures feedback == BaseFeedback(score)
            <==> !IsTooShort(essay, reference) && MissingTerms(essay, reference) == {}
  {
    var points := Suggestions(essay, reference, listing);
    if points == [] then BaseFeedback(score)
    else BaseFeedback(score) + "\n\n" + SuggestionsHeading + "\n" + Bullet
         + Join(points, "\n" + Bullet)
  }

  /** `grade_essay` with the classifier's class index as an oracle: the score
      is on the five-point scale, so the feedback always opens with one of the
      five templates and never with "Invalid score". */
  function GradeEssay(classIndex: nat, essay: string, reference: string,
                      listing: seq<string>): (graded: (int, string))
    requires classIndex < NumLabels
    requires IsListing(listing, MissingTerms(essay, reference))
    ensures 1 <= graded.0 <= NumLabels
    ensures BaseFeedback(graded.0) <= graded.1
    ensures BaseFeedback(graded.0) != InvalidScoreFeedback
    ensures graded.0 == classIndex + 1
    ensures graded.1 == GenerateFeedback(graded.0, essay, reference, listing)
  {
    var score := PredictedScore(classIndex);
    (score, GenerateFeedback(score, essay, reference, listing))
  }

  // ---------------------------------------------------------------------------
  // Layout of the feedback text

  /** Each string with `prefix` in front. */
  function Prefixed(prefix: string, items: seq<string>): (r: seq<string>)
    ensures |r| == |items|
    ensures forall k :: 0 <= k < |items| ==> r[k] == prefix + items[k]
  {
    if |items| == 0 then [] else [prefix + items[0]] + Prefixed(prefix, items[1..])
  }

  /** Joining with "\n" + prefix after a leading prefix is joining the prefixed
      items with "\n". */
  lemma {:induction false} JoinWithBullets(prefix: string, items: seq<string>)
    requires |items| >= 1
    ensures prefix + Join(items, "\n" + prefix) == Join(Prefixed(prefix, items), "\n")
  {
    if |items| > 1 {
      JoinWithBullets(prefix, items[1..]);
      assert Prefixed(prefix, items)[1..] == Prefixed(prefix, items[1..]);
    }
  }

  /** A join of line-free strings with a line-free separator is line-free. */
  lemma {:induction false} JoinHasNoNewline(items: seq<string>, sep: string)
    requires '\n' !in sep
    requires forall k :: 0 <= k < |items| ==> '\n' !in items[k]
    ensures '\n' !in Join(items, sep)
  {
    if |items| > 1 {
      JoinHasNoNewline(items[1..], sep);
    }
  }

  /** No suggestion spans more than one line: the quoted terms are words. */
  lemma SuggestionsAreOneLine(essay: string, reference: string, listing: seq<string>)
    requires IsListing(listing, MissingTerms(essay, reference))
    ensures forall k :: 0 <= k < |Suggestions(essay, reference, listing)| ==>
              '\n' !in Suggestions(essay, reference, listing)[k]
  {
    KeyConceptsIsOneLine(essay, reference, listing);
    assert '\n' !in ExpandSuggestion;
  }

  /** The quoted terms are words of the reference, so the key-concepts
      suggestion has no line feed. */
  lemma KeyConceptsIsOneLine(essay: string, reference: string, listing: seq<string>)
    requires IsListing(listing, MissingTerms(essay, reference))
    ensures '\n' !in KeyConceptsSuggestion(KeyTerms(listing))
  {
    var terms := KeyTerms(listing);
    forall k | 0 <= k < |terms|
      ensures '\n' !in terms[k]
    {
      assert terms[k] in WordSet(reference);
      assert IsWord(terms[k]);
    }
    JoinHasNoNewline(terms, ", ");
    assert '\n' !in KeyConceptsLead;
  }

  /** The feedback's lines: the template alone when there is no suggestion,
      otherwise the template, a blank line, the heading, and one "- " bullet per
      suggestion in order. */
  lemma FeedbackLines(score: int, essay: string, reference: string, listing: seq<string>)
    requires IsListing(listing, MissingTerms(essay, reference))
    ensures var points := Suggestions(essay, reference, listing);
            var feedback := GenerateFeedback(score, essay, reference, listing);
            Split(feedback, '\n')
              == if points == [] then [BaseFeedback(score)]
                 else [BaseFeedback(score), "", SuggestionsHeading] + Prefixed(Bullet, points)
  {
    var points := Suggestions(essay, reference, listing);
    var feedback := GenerateFeedback(score, essay, reference, listing);
    var base := BaseFeedback(score);
    BaseFeedbackIsOneLine(score);
    if points == [] {
      SplitJoin([base], '\n');
    } else {
      var bullets := Prefixed(Bullet, points);
      var lines := [base, "", SuggestionsHeading] + bullets;
      SuggestionsAreOneLine(essay, reference, listing);
      assert forall k :: 0 <= k < |lines| ==> '\n' !in lines[k];
      FeedbackIsJoinOfLines(base, points, GenerateFeedback(score, essay, reference, listing));
      SplitJoin(lines, '\n');
    }
  }

  /** The graded feedback, line by line: the template of the predicted score,
      then, when there is a suggestion, a blank line, the heading and one
      bullet per suggestion. */
  lemma GradedFeedbackLines(classIndex: nat, essay: string, reference: string, listing: seq<string>)
    requires classIndex < NumLabels
    requires IsListing(listing, MissingTerms(essay, reference))
    ensures var points := Suggestions(essay, reference, listing);
            var graded := GradeEssay(classIndex, essay, reference, listing);
            Split(graded.1, '\n')
              == if points == [] then [BaseFeedback(classIndex + 1)]
                 else [BaseFeedback(classIndex + 1), "", SuggestionsHeading] + Prefixed(Bullet, points)
  {
    FeedbackLines(classIndex + 1, essay, reference, listing);
  }

  /** The feedback text with suggestions is its lines joined by line feeds. */
  lemma FeedbackIsJoinOfLines(base: string, points: seq<string>, feedback: string)
    requires |points| >= 1
    requires feedback == base + "\n\n" + SuggestionsHeading + "\n" + Bullet
                         + Join(points, "\n" + Bullet)
    ensures feedback == Join([base, "", SuggestionsHeading] + Prefixed(Bullet, points), "\n")
  {
    var bullets := Prefixed(Bullet, points);
    var body := Join(points, "\n" + Bullet);
    JoinWithBullets(Bullet, points);
    HeadedLines(base, bullets);
    Regroup(base, body);
  }

  /** Joining the three head lines in front of the bullets. */
  lemma HeadedLines(base: string, bullets: seq<string>)
    requires |bullets| >= 1
    ensures Join([base, "", SuggestionsHeading] + bullets, "\n")
            == base + "\n" + ("\n" + (SuggestionsHeading + "\n" + Join(bullets, "\n")))
  {
    JoinThreeInFront(base, "", SuggestionsHeading, bullets, "\n");
    assert "" + "\n" == "\n";
  }

  /** Joining three items in front of a non-empty list. */
  lemma JoinThreeInFront(a: string, b: string, c: string, rest: seq<string>, sep: string)
    requires |rest| >= 1
    ensures Join([a, b, c] + rest, sep) == a + sep + (b + sep + (c + sep + Join(rest, sep)))
  {
    var tail := [c] + rest;
    var middle := [b] + tail;
    assert [a, b, c] + rest == [a] + middle;
    JoinCons(c, rest, sep);
    JoinCons(b, tail, sep);
    JoinCons(a, middle, sep);
  }

  /** The layout of `generate_feedback`, regrouped line by line. */
  lemma Regroup(base: string, body: string)
    ensures base + "\n" + ("\n" + (SuggestionsHeading + "\n" + (Bullet + body)))
            == base + "\n\n" + SuggestionsHeading + "\n" + Bullet + body
  {
    var nl := "\n";
    var block := SuggestionsHeading + nl + (Bullet + body);
    Assoc(base + nl, nl, block);
    assert base + nl + nl == base + "\n\n";
    Assoc4(base + "\n\n", SuggestionsHeading, nl, Bullet, body);
  }

  /** Regrouping a five-part concatenation. */
  lemma Assoc4(a: string, b: string, c: string, d: string, e: string)
    ensures a + (b + c + (d + e)) == a + b + c + d + e
  {
  }

  lemma Assoc(a: string, b: string, c: string)
    ensures a + (b + c) == a + b + c
  {
  }

  /** Joining an item in front of a non-empty list. */
  lemma JoinCons(x: string, rest: seq<string>, sep: string)
    requires |rest| >= 1
    ensures Join([x] + rest, sep) == x + sep + Join(rest, sep)
  {
    assert ([x] + rest)[1..] == rest;
  }
}

=== FILE: exam_routes.dfy ===
/** The exam blueprint: a student starts a session of an exam and submits
    answers to it. `userId` is the JWT identity of the caller. */
module ExamRoutes {
  import opened Wrappers
  import opened Models
  import opened Http

  // ---------------------------------------------------------------- start_exam

  const ExamStarted := "Exam started successfully"

  /** `start_exam`: a new in-progress session of the exam for the caller. There
      is no check for an earlier session, so every call opens another one. An
      unknown exam is a 404 and opens none. */
  function StartExam(store: Store, userId: int, examId: int, now: Time): (r: Outcome)
    ensures Lookup(store.exams, examId).None? ==> r == Unchanged(NotFound, store)
    ensures r.reply.status == 201 <==> Lookup(store.exams, examId).Some?
    ensures r.reply.status == 201 ==>
              && r.reply.message == ExamStarted
              && store.sessions <= r.store.sessions
              && r.store.(sessions := store.sessions) == store
              && |r.store.sessions| == |store.sessions| + 1
              && r.createdId == Some(NextId(store.sessions))
              && var s := r.store.sessions[|store.sessions|];
                 && s.studentId == userId && s.examId == examId && s.startTime == now
                 && s.status == InProgressStatus && s.endTime.None? && s.score.None?
  {
    if Lookup(store.exams, examId).None? then Unchanged(NotFound, store)
    else
      Outcome(Reply(201, ExamStarted),
              store.(sessions := store.sessions + [NewSession(userId, examId as nat, now)]),
              Some(NextId(store.sessions)))
  }

  /** Starting the same exam twice opens two distinct sessions, both of the
      caller and both in progress. */
  lemma StartingTwiceOpensTwoSessions(store: Store, userId: int, examId: int, t1: Time, t2: Time)
    requires Lookup(store.exams, examId).Some?
    ensures var first := StartExam(store, userId, examId, t1);
            var second := StartExam(first.store, userId, examId, t2);
            && second.reply.status == 201
            && first.createdId != second.createdId
            && |second.store.sessions| == |store.sessions| + 2
            && second.store.sessions[|store.sessions|].studentId == userId
            && second.store.sessions[|store.sessions| + 1].studentId == userId
  {
    var first := StartExam(store, userId, examId, t1);
    assert first.store.exams == store.exams;
  }

  lemma StartExamKeepsStoreValid(store: Store, userId: int, examId: int, now: Time)
    requires Valid(store)
    ensures Valid(StartExam(store, userId, examId, now).store)
  {
  }

  // --------------------------------------------------------------- submit_exam

  /** One element of the `answers` list; every key may be absent. */
  datatype AnswerEntry = AnswerEntry(questionId: Option<int>, answerText: Option<string>,
                                     questionType: Option<string>,
                                     referenceAnswer: Option<string>)

  const Unauthorized := Reply(403, "Unauthorized access")
  const ExamSubmitted := Reply(200, "Exam submitted successfully")

  /** The reply, the database after the request, and the positions of the
      entries whose text reached the essay grader, in call order. */
  datatype Submission = Submission(reply: Reply, store: Store, graded: seq<nat>)

  /** The entry names both keys the Answer row needs. */
  predicate HasAnswerFields(e: AnswerEntry) { e.questionId.Some? && e.answerText.Some? }

  predicate IsEssayEntry(e: AnswerEntry) { e.questionType == Some(EssayType) }

  /** The first loop of `submit_exam`: one Answer row per entry, in order,
      with no score or feedback. */
  function AnswerRows(sessionId: nat, entries: seq<AnswerEntry>, now: Time): (rows: seq<Answer>)
    requires forall k :: 0 <= k < |entries| ==>
               entries[k].questionId.Some? && entries[k].answerText.Some?
    ensures |rows| == |entries|
    ensures forall k :: 0 <= k < |rows| ==>
              rows[k] == Answer(sessionId, entries[k].questionId.value, entries[k].answerText.value,
                                None, None, now)
  {
    seq(|entries|, k requires 0 <= k < |entries| =>
          Answer(sessionId, entries[k].questionId.value, entries[k].answerText.value, None, None, now))
  }

  /** The position at which the grading loop stops: the first entry that has
      no `question_type` or is an essay; `|entries|` when there is none. */
  function GradingStop(entries: seq<AnswerEntry>): (i: nat)
    ensures i <= |entries|
    ensures forall k :: 0 <= k < i ==> entries[k].questionType.Some? && !IsEssayEntry(entries[k])
    ensures i < |entries| ==> entries[i].questionType.None? || IsEssayEntry(entries[i])
  {
    if |entries| == 0 then 0
    else if entries[0].questionType.None? || IsEssayEntry(entries[0]) then 0
    else 1 + GradingStop(entries[1..])
  }

  /** An entry the written code stores: both Answer keys and a type other
      than essay. */
  predicate IsAcceptedEntry(e: AnswerEntry) {
    HasAnswerFields(e) && e.questionType.Some? && !IsEssayEntry(e)
  }

  /** The grading loop runs to the end exactly when every entry is accepted. */
  lemma GradingRunsThroughIffAccepted(entries: seq<AnswerEntry>)
    requires forall k :: 0 <= k < |entries| ==> HasAnswerFields(entries[k])
    ensures GradingStop(entries) == |entries| <==>
            forall k :: 0 <= k < |entries| ==> IsAcceptedEntry(entries[k])
  {
  }

  /** The entries the written grading loop hands to the essay grader: the first
      essay entry, when every entry before it has a type and it has a
      reference answer. */
  function GraderCalls(entries: seq<AnswerEntry>): (calls: seq<nat>)
    ensures |calls| <= 1
    ensures forall k :: 0 <= k < |calls| ==>
              && calls[k] < |entries|
              && IsEssayEntry(entries[calls[k]])
              && entries[calls[k]].referenceAnswer.Some?
              && forall j :: 0 <= j < calls[k] ==> !IsEssayEntry(entries[j])
    ensures calls != [] ==> GradingStop(entries) < |entries| && calls == [GradingStop(entries)]
    ensures GradingStop(entries) < |entries|
            && IsEssayEntry(entries[GradingStop(entries)])
            && entries[GradingStop(entries)].referenceAnswer.Some?
            ==> calls == [GradingStop(entries)]
  {
    var stop := GradingStop(entries);
    if stop < |entries| && IsEssayEntry(entries[stop]) && entries[stop].referenceAnswer.Some? then [stop]
    else []
  }

  /** `submit_exam` as written. An unknown session is a 404 and a session of
      another student a 403. A missing `answers` list counts as empty. Each
      entry needs `question_id` and `answer_text`, else a `KeyError`; the
      grading loop then reads every entry's `question_type`, else a `KeyError`.
      For the first essay entry it calls the essay grader (when the entry has a
      reference answer) and then assigns the grade to attributes of the request
      dict, which raises. None of these exceptions is caught, so each is a 500
      and the uncommitted rows are discarded. The session row itself is never
      touched. */
  function SubmitExam(store: Store, userId: int, sessionId: int,
                      answers: Option<seq<AnswerEntry>>, now: Time): (r: Submission)
    ensures Lookup(store.sessions, sessionId).None? ==>
              r == Submission(NotFound, store, [])
    ensures Lookup(store.sessions, sessionId).Some? &&
            store.sessions[sessionId - 1].studentId != userId ==>
              r == Submission(Unauthorized, store, [])
    ensures r.store.sessions == store.sessions
    ensures r.reply.status != 200 ==> r.store == store
    ensures (&& Lookup(store.sessions, sessionId).Some?
             && store.sessions[sessionId - 1].studentId == userId
             && r.reply.status != 200)
            ==> r.reply == InternalError
    ensures r.reply.status == 200 <==>
              && Lookup(store.sessions, sessionId).Some?
              && store.sessions[sessionId - 1].studentId == userId
              && forall k :: 0 <= k < |answers.GetOr([])| ==> IsAcceptedEntry(answers.GetOr([])[k])
    ensures r.reply.status == 200 ==>
              && r.reply == ExamSubmitted
              && store.answers <= r.store.answers
              && r.store.(answers := store.answers) == store
              && |r.store.answers| == |store.answers| + |answers.GetOr([])|
              && forall k :: 0 <= k < |answers.GetOr([])| ==>
                   r.store.answers[|store.answers| + k]
                   == Answer(sessionId as nat, answers.GetOr([])[k].questionId.value,
                             answers.GetOr([])[k].answerText.value, None, None, now)
    ensures r.graded
            == if && Lookup(store.sessions, sessionId).Some?
                  && store.sessions[sessionId - 1].studentId == userId
                  && forall k :: 0 <= k < |answers.GetOr([])| ==> HasAnswerFields(answers.GetOr([])[k])
               then GraderCalls(answers.GetOr([]))
               else []
    ensures r.reply.status == 200 ==> r.graded == []
  {
    if Lookup(store.sessions, sessionId).None? then Submission(NotFound, store, [])
    else if store.sessions[sessionId - 1].studentId != userId then Submission(Unauthorized, store, [])
    else
      var entries := answers.GetOr([]);
      if exists k :: 0 <= k < |entries| && !HasAnswerFields(entries[k]) then
        Submission(InternalError, store, [])
      else
        GradingRunsThroughIffAccepted(entries);
        if GradingStop(entries) == |entries| then
          var rows := AnswerRows(sessionId as nat, entries, now);
          Submission(ExamSubmitted, store.(answers := store.answers + rows), [])
        else
          Submission(InternalError, store, GraderCalls(entries))
  }

  /** As written, no submission that contains an essay answer succeeds, and it
      stores none of its answers; for the session's owner it is a 500. */
  lemma EssaySubmissionsAlwaysFail(store: Store, userId: int, sessionId: int,
                                   answers: seq<AnswerEntry>, now: Time, k: nat)
    requires k < |answers| && IsEssayEntry(answers[k])
    ensures var r := SubmitExam(store, userId, sessionId, Some(answers), now);
            && r.reply.status != 200 && r.store == store
            && ((Lookup(store.sessions, sessionId).Some?
                 && store.sessions[sessionId - 1].studentId == userId)
                ==> r.reply == InternalError)
  {
  }

  /** A concrete instance: one well-formed essay answer, by the session's own
      student, reaches the essay grader and still ends in a 500 that stores
      nothing. */
  lemma EssayAnswerIsLost(store: Store, sessionId: int, now: Time)
    requires Lookup(store.sessions, sessionId).Some?
    ensures var entry := AnswerEntry(Some(1), Some("essay text"), Some(EssayType), Some("reference"));
            var r := SubmitExam(store, store.sessions[sessionId - 1].studentId, sessionId,
                                Some([entry]), now);
            r.reply == InternalError && r.graded == [0] && r.store == store
  {
    var entry := AnswerEntry(Some(1), Some("essay text"), Some(EssayType), Some("reference"));
    assert GradingStop([entry]) == 0;
  }

  /** A submission with no `answers` key succeeds and adds nothing. */
  lemma EmptySubmissionAddsNothing(store: Store, sessionId: int, now: Time)
    requires Lookup(store.sessions, sessionId).Some?
    ensures var r := SubmitExam(store, store.sessions[sessionId - 1].studentId, sessionId, None, now);
            r.reply == ExamSubmitted && r.store == store
  {
    assert store.(answers := store.answers + []) == store;
  }

  lemma SubmitExamKeepsStoreValid(store: Store, userId: int, sessionId: int,
                                  answers: Option<seq<AnswerEntry>>, now: Time)
    requires Valid(store)
    ensures Valid(SubmitExam(store, userId, sessionId, answers, now).store)
  {
  }

  // ------------------------------------------------------ submit_exam, intended

  /** A grade as the essay grader returns it. */
  datatype Grade = Grade(score: int, feedback: string)

  /** The Answer row an entry evidently should produce: an essay answer carries
      the grade of its text against its reference answer. */
  function GradedRow(sessionId: nat, e: AnswerEntry, grade: (string, string) -> Grade, now: Time)
    : (a: Answer)
    requires HasAnswerFields(e) && (IsEssayEntry(e) ==> e.referenceAnswer.Some?)
    ensures a.sessionId == sessionId && a.questionId == e.questionId.value
    ensures a.answerText == e.answerText.value && a.submittedAt == now
    ensures IsEssayEntry(e) ==>
              var g := grade(e.answerText.value, e.referenceAnswer.value);
              a.score == Some(g.score as real) && a.feedback == Some(g.feedback)
    ensures !IsEssayEntry(e) ==> a.score.None? && a.feedback.None?
  {
    if IsEssayEntry(e) then
      var g := grade(e.answerText.value, e.referenceAnswer.value);
      Answer(sessionId, e.questionId.value, e.answerText.value, Some(g.score as real),
             Some(g.feedback), now)
    else
      Answer(sessionId, e.questionId.value, e.answerText.value, None, None, now)
  }

  /** An entry the intended submission accepts. */
  predicate IsCompleteEntry(e: AnswerEntry) {
    HasAnswerFields(e) && e.questionType.Some? && (IsEssayEntry(e) ==> e.referenceAnswer.Some?)
  }

  /** The positions of the essay entries, in order. */
  function EssayPositions(entries: seq<AnswerEntry>): (ps: seq<nat>)
    ensures forall k :: 0 <= k < |ps| ==> ps[k] < |entries| && IsEssayEntry(entries[ps[k]])
    ensures forall k, l :: 0 <= k < l < |ps| ==> ps[k] < ps[l]
    ensures forall i :: 0 <= i < |entries| && IsEssayEntry(entries[i]) ==> i in ps
  {
    if |entries| == 0 then []
    else
      var front := entries[..|entries| - 1];
      assert forall i :: 0 <= i < |front| ==> front[i] == entries[i];
      EssayPositions(front) + (if IsEssayEntry(entries[|entries| - 1]) then [|entries| - 1] else [])
  }

  /** What `submit_exam` evidently intends: the same guards, then one Answer
      row per entry in order, every essay entry graded and its grade stored on
      its own row, and a 200. */
  function SubmitExamIntended(store: Store, userId: int, sessionId: int,
                              answers: Option<seq<AnswerEntry>>,
                              grade: (string, string) -> Grade, now: Time): (r: Submission)
    ensures Lookup(store.sessions, sessionId).None? ==> r == Submission(NotFound, store, [])
    ensures r.store.sessions == store.sessions
    ensures r.reply.status != 200 ==> r.store == store && r.graded == []
    ensures Lookup(store.sessions, sessionId).Some? &&
            store.sessions[sessionId - 1].studentId != userId ==>
              r == Submission(Unauthorized, store, [])
    ensures (&& Lookup(store.sessions, sessionId).Some?
             && store.sessions[sessionId - 1].studentId == userId
             && r.reply.status != 200)
            ==> r.reply == InternalError
    ensures r.reply.status == 200 <==>
              && Lookup(store.sessions, sessionId).Some?
              && store.sessions[sessionId - 1].studentId == userId
              && forall k :: 0 <= k < |answers.GetOr([])| ==> IsCompleteEntry(answers.GetOr([])[k])
    ensures r.reply.status == 200 ==>
              && r.graded == EssayPositions(answers.GetOr([]))
              && store.answers <= r.store.answers
              && r.store.(answers := store.answers) == store
              && |r.store.answers| == |store.answers| + |answers.GetOr([])|
              && forall k :: 0 <= k < |answers.GetOr([])| ==>
                   r.store.answers[|store.answers| + k]
                   == GradedRow(sessionId as nat, answers.GetOr([])[k], grade, now)
  {
    if Lookup(store.sessions, sessionId).None? then Submission(NotFound, store, [])
    else if store.sessions[sessionId - 1].studentId != userId then Submission(Unauthorized, store, [])
    else
      var entries := answers.GetOr([]);
      if exists k :: 0 <= k < |entries| && !IsCompleteEntry(entries[k]) then
        Submission(InternalError, store, [])
      else
        var rows := seq(|entries|, k requires 0 <= k < |entries| =>
                          GradedRow(sessionId as nat, entries[k], grade, now));
        Submission(ExamSubmitted, store.(answers := store.answers + rows), EssayPositions(entries))
  }

  /** The two agree on every submission without an essay answer. */
  lemma IntendedAgreesWithoutEssays(store: Store, userId: int, sessionId: int,
                                    answers: seq<AnswerEntry>, grade: (string, string) -> Grade,
                                    now: Time)
    requires forall k :: 0 <= k < |answers| ==> !IsEssayEntry(answers[k])
    ensures SubmitExamIntended(store, userId, sessionId, Some(answers), grade, now).reply
            == SubmitExam(store, userId, sessionId, Some(answers), now).reply
    ensures SubmitExamIntended(store, userId, sessionId, Some(answers), grade, now).store
            == SubmitExam(store, userId, sessionId, Some(answers), now).store
  {
  }

  /** Under the intended behaviour the essay answer that is lost as written is
      stored, with its grade. */
  lemma IntendedStoresEssayGrade(store: Store, sessionId: int, grade: (string, string) -> Grade,
                                 now: Time)
    requires Lookup(store.sessions, sessionId).Some?
    ensures var entry := AnswerEntry(Some(1), Some("essay text"), Some(EssayType), Some("reference"));
            var r := SubmitExamIntended(store, store.sessions[sessionId - 1].studentId, sessionId,
                                        Some([entry]), grade, now);
            && r.reply == ExamSubmitted && r.graded == [0]
            && r.store.answers == store.answers +
                 [Answer(sessionId as nat, 1, "essay text",
                         Some(grade("essay text", "reference").score as real),
                         Some(grade("essay text", "reference").feedback), now)]
  {
    var entry := AnswerEntry(Some(1), Some("essay text"), Some(EssayType), Some("reference"));
    assert IsCompleteEntry(entry);
    assert [entry][..0] == [];
    assert EssayPositions([entry]) == [0];
  }

  lemma SubmitExamIntendedKeepsStoreValid(store: Store, userId: int, sessionId: int,
                                          answers: Option<seq<AnswerEntry>>,
                                          grade: (string, string) -> Grade, now: Time)
    requires Valid(store)
    ensures Valid(SubmitExamIntended(store, userId, sessionId, answers, grade, now).store)
  {
  }
}

=== FILE: http.dfy ===
/** What a route hands back to Flask: a status code and a message, together
    with the database as the request leaves it. */
module Http {
  import opened Wrappers
  import opened Models

  datatype Reply = Reply(status: int, message: string)

  /** The reply, the database after the request (the old one when the request
      rolls back), and the id a creating route reports. */
  datatype Outcome = Outcome(reply: Reply, store: Store, createdId: Option<nat>)

  /** `str()` of werkzeug's NotFound, raised by `get_or_404` for an unknown id. */
  const NotFoundText := "404 Not Found: The requested URL was not found on the server. If you entered the URL manually please check your spelling and try again."

  /** The reply Flask sends when `get_or_404` aborts outside any `try`. */
  const NotFound := Reply(404, NotFoundText)

  /** The reply Flask sends for an exception no handler catches. */
  const InternalError := Reply(500, "Internal Server Error")

  /** `str()` of a `KeyError`: the missing key in quotes. */
  function KeyErrorText(key: string): string { "'" + key + "'" }

  /** A request that leaves the database as it found it. */
  function Unchanged(reply: Reply, store: Store): Outcome { Outcome(reply, store, None) }
}

=== FILE: models.dfy ===
/** The relational schema of the exam system as immutable records.
    A table is a sequence of rows, and a row's id is its 1-based position:
    rows are only ever appended, never deleted, so ids are assigned in order. */
module Models {
  import opened Wrappers

  /** Timestamps are clock readings supplied by the caller. */
  type Time = nat

  const StudentRole := "student"
  const AdminRole := "admin"
  const MultipleChoiceType := "multiple_choice"
  const EssayType := "essay"
  const InProgressStatus := "in_progress"

  /** A registered account. `role` is free text: only the role-update route
      restricts it to student or admin. */
  datatype User = User(username: string, email: string, passwordHash: string,
                       role: string, createdAt: Time)

  datatype Exam = Exam(title: string, description: string, durationMinutes: int,
                       createdAt: Time)

  /** `correctAnswer` holds the correct option text for a multiple-choice
      question and the reference answer for an essay; it may be NULL. */
  datatype Question = Question(examId: nat, text: string, questionType: string,
                               correctAnswer: Option<string>, points: int)

  datatype QuestionOption = QuestionOption(questionId: nat, text: string, isCorrect: bool)

  /** One attempt of one student at one exam. `endTime` and `score` are NULL
      until something sets them. */
  datatype ExamSession = ExamSession(studentId: int, examId: nat, startTime: Time,
                                     endTime: Option<Time>, score: Option<real>,
                                     status: string)

  /** A submitted answer: its text is required, its score and feedback are not. */
  datatype Answer = Answer(sessionId: nat, questionId: int, answerText: string,
                           score: Option<real>, feedback: Option<string>,
                           submittedAt: Time)

  /** The whole database. */
  datatype Store = Store(users: seq<User>, exams: seq<Exam>, questions: seq<Question>,
                         options: seq<QuestionOption>, sessions: seq<ExamSession>,
                         answers: seq<Answer>)

  /** SQLAlchemy's `Model.query.get(id)`: the row with that id, if any. */
  function Lookup<T>(table: seq<T>, id: int): (r: Option<T>)
    ensures r.Some? <==> 1 <= id <= |table|
    ensures r.Some? ==> r.value == table[id - 1]
  {
    if 1 <= id <= |table| then Some(table[id - 1]) else None
  }

  /** The id the next row appended to `table` receives. */
  function NextId<T>(table: seq<T>): (id: nat)
    ensures Lookup(table, id).None?
    ensures id >= 1
  {
    |table| + 1
  }

  /** The `unique=True` constraints of the users table. */
  predicate UniqueAccounts(users: seq<User>) {
    && (forall i, j :: 0 <= i < j < |users| ==> users[i].username != users[j].username)
    && (forall i, j :: 0 <= i < j < |users| ==> users[i].email != users[j].email)
  }

  /** The foreign keys the routes maintain: every question belongs to an
      existing exam, every option to an existing question, every session to an
      existing exam and every answer to an existing session. */
  predicate ForeignKeysHold(s: Store) {
    && (forall i :: 0 <= i < |s.questions| ==> 1 <= s.questions[i].examId <= |s.exams|)
    && (forall i :: 0 <= i < |s.options| ==> 1 <= s.options[i].questionId <= |s.questions|)
    && (forall i :: 0 <= i < |s.sessions| ==> 1 <= s.sessions[i].examId <= |s.exams|)
    && (forall i :: 0 <= i < |s.answers| ==> 1 <= s.answers[i].sessionId <= |s.sessions|)
  }

  /** The database constraints every route keeps. */
  predicate Valid(s: Store) {
    UniqueAccounts(s.users) && ForeignKeysHold(s)
  }

  /** The empty database. */
  const EmptyStore := Store([], [], [], [], [], [])

  /** A new session row with the column defaults of the sessions table. */
  function NewSession(studentId: int, examId: nat, now: Time): ExamSession {
    ExamSession(studentId, examId, now, None, None, InProgressStatus)
  }
}

=== FILE: question_generator.dfy ===
/** The deterministic part of `QuestionGenerator`: turning the text GPT-2
    generates into a question record. The generated texts (the question, the
    options when the question has a single line, the reference answer of an
    essay) are oracles passed in as strings. */
module QuestionGenerator {
  import opened Wrappers
  import opened Text
  import opened Models

  const QuestionLabel := "Question:"
  const MaxOptions := 4

  /** What `generate_question` returns: the dict with `question_type`
      'multiple_choice' (options and correct answer) or 'essay' (reference
      answer). */
  datatype GeneratedQuestion =
    | MultipleChoice(text: string, options: seq<string>, correctAnswer: string)
    | EssayQuestion(text: string, referenceAnswer: string)
  {
    /** The `question_type` entry of the dict. */
    function QuestionType(): string {
      if MultipleChoice? then MultipleChoiceType else EssayType
    }
  }

  /** The exception messages: `_process_multiple_choice` wraps the `IndexError`
      of `options[0]`, and `generate_question` wraps that again. */
  const NoOptionsError := "Error processing multiple choice question: list index out of range"
  function GenerationError(inner: string): string { "Error generating question: " + inner }

  /** `text.replace('Question:', '').strip()` */
  function CleanQuestionText(text: string): (q: string)
    ensures q == [] || (!IsSpace(q[0]) && !IsSpace(q[|q| - 1]))
    ensures |q| <= |text|
  {
    Strip(RemoveAll(text, QuestionLabel))
  }

  /** Text without a label is only stripped. */
  lemma CleanLabelFreeText(text: string)
    requires forall i: nat :: !OccursAt(QuestionLabel, text, i)
    ensures CleanQuestionText(text) == Strip(text)
  {
    RemoveAllWithoutOccurrence(text, QuestionLabel);
  }

  /** `[opt.strip() for opt in lines if opt.strip()]`: the non-blank lines,
      stripped, in order. */
  function OptionLines(lines: seq<string>): (options: seq<string>)
    ensures |options| <= |lines|
    ensures forall k :: 0 <= k < |options| ==> options[k] != []
  {
    if |lines| == 0 then []
    else
      var head := Strip(lines[0]);
      if head == [] then OptionLines(lines[1..]) else [head] + OptionLines(lines[1..])
  }

  /** Every option is a whole line with its surrounding whitespace removed. */
  lemma {:induction false} OptionsAreStrippedLines(lines: seq<string>)
    ensures forall k :: 0 <= k < |OptionLines(lines)| ==>
              exists j :: 0 <= j < |lines| && OptionLines(lines)[k] == Strip(lines[j])
  {
    if |lines| > 0 {
      OptionsAreStrippedLines(lines[1..]);
      var head := Strip(lines[0]);
      var options := OptionLines(lines);
      var rest := OptionLines(lines[1..]);
      var skip := if head == [] then 0 else 1;
      assert options == (if head == [] then [] else [head]) + rest;
      forall k | 0 <= k < |options|
        ensures exists j :: 0 <= j < |lines| && options[k] == Strip(lines[j])
      {
        if k < skip {
          assert options[k] == Strip(lines[0]);
        } else {
          assert options[k] == rest[k - skip];
          var j :| 0 <= j < |lines[1..]| && rest[k - skip] == Strip(lines[1..][j]);
          assert lines[1..][j] == lines[j + 1];
        }
      }
    } else {
      assert OptionLines(lines) == [];
    }
  }

  /** No option starts or ends with whitespace. */
  lemma {:induction false} OptionsHaveNoOuterSpace(lines: seq<string>)
    ensures forall k :: 0 <= k < |OptionLines(lines)| ==>
              var o := OptionLines(lines)[k]; !IsSpace(o[0]) && !IsSpace(o[|o| - 1])
  {
    if |lines| > 0 {
      OptionsHaveNoOuterSpace(lines[1..]);
    }
  }

  /** There are no options exactly when every line is blank. */
  lemma {:induction false} NoOptionsIffAllBlank(lines: seq<string>)
    ensures OptionLines(lines) == [] <==> forall j :: 0 <= j < |lines| ==> Strip(lines[j]) == []
  {
    if |lines| > 0 {
      NoOptionsIffAllBlank(lines[1..]);
      assert forall j :: 1 <= j < |lines| ==> lines[1..][j - 1] == lines[j];
    }
  }

  /** Option extraction keeps the order of the lines: it distributes over
      concatenation. */
  lemma {:induction false} OptionLinesOfConcat(a: seq<string>, b: seq<string>)
    ensures OptionLines(a + b) == OptionLines(a) + OptionLines(b)
  {
    if |a| == 0 {
      assert a + b == b;
    } else {
      assert (a + b)[0] == a[0];
      assert (a + b)[1..] == a[1..] + b;
      OptionLinesOfConcat(a[1..], b);
    }
  }

  /** `options[:4]` */
  function FirstOptions(options: seq<string>): (r: seq<string>)
    ensures |r| <= MaxOptions
    ensures |r| == if |options| < MaxOptions then |options| else MaxOptions
    ensures r <= options
  {
    if |options| <= MaxOptions then options else options[..MaxOptions]
  }

  /** The lines after the first line of a generated text. */
  function LaterLines(text: string): seq<string> {
    Split(text, '\n')[1..]
  }

  /** The first line of a generated text. */
  function FirstLine(text: string): (line: string)
    ensures '\n' !in line
    ensures line <= text
    ensures |line| < |text| ==> text[|line|] == '\n'
  {
    SplitHead(text, '\n');
    Split(text, '\n')[0]
  }

  /** The lines the options are read from: the later lines of the generated
      text when it has more than one line, otherwise the lines of the second
      generation. */
  function OptionSource(generatedText: string, optionsText: string): (lines: seq<string>)
    ensures '\n' in generatedText ==> lines == LaterLines(generatedText)
    ensures '\n' !in generatedText ==> lines == Split(optionsText, '\n')
  {
    SplitHead(generatedText, '\n');
    var parts := Split(generatedText, '\n');
    if |parts| < 2 then Split(optionsText, '\n') else parts[1..]
  }

  /** `_process_multiple_choice`. The question is the first line, cleaned. With
      more than one line the options come from the later lines; with a single
      line they come from a second generation, `optionsText`. Either way they
      are the first four non-blank lines, stripped, and the first is the correct
      answer; with none, `options[0]` raises. */
  function ProcessMultipleChoice(generatedText: string, optionsText: string)
    : (r: Result<GeneratedQuestion, string>)
    ensures r.Success? ==>
              && r.value.MultipleChoice?
              && r.value.text == CleanQuestionText(FirstLine(generatedText))
              && 1 <= |r.value.options| <= MaxOptions
              && r.value.correctAnswer == r.value.options[0]
              && r.value.correctAnswer in r.value.options
    ensures r.Failure? <==> OptionLines(OptionSource(generatedText, optionsText)) == []
    ensures r.Success? ==>
              r.value.options == FirstOptions(OptionLines(OptionSource(generatedText, optionsText)))
    ensures r.Failure? ==> r.error == NoOptionsError
  {
    var options := FirstOptions(OptionLines(OptionSource(generatedText, optionsText)));
    if |options| == 0 then Failure(NoOptionsError)
    else Success(MultipleChoice(CleanQuestionText(FirstLine(generatedText)), options, options[0]))
  }

  /** The multiple-choice processing fails exactly when every line the options
      are taken from is blank. */
  lemma MultipleChoiceFailsIffBlank(generatedText: string, optionsText: string)
    ensures var lines := OptionSource(generatedText, optionsText);
            ProcessMultipleChoice(generatedText, optionsText).Failure? <==>
            forall j :: 0 <= j < |lines| ==> Strip(lines[j]) == []
  {
    NoOptionsIffAllBlank(OptionSource(generatedText, optionsText));
  }

  /** A "Question:" label in front of a label-free line is removed together
      with the surrounding whitespace. */
  lemma LabelledLineGivesItsText(line: string)
    requires forall i: nat :: !OccursAt(QuestionLabel, line, i)
    ensures CleanQuestionText(QuestionLabel + line) == Strip(line)
  {
    RemoveAllAfterPattern(QuestionLabel, line);
    RemoveAllWithoutOccurrence(line, QuestionLabel);
  }

  /** Option extraction keeps lines that are already clean as they are. */
  lemma {:induction false} CleanLinesAreOptions(lines: seq<string>)
    requires forall k :: 0 <= k < |lines| ==>
               lines[k] != [] && !IsSpace(lines[k][0]) && !IsSpace(lines[k][|lines[k]| - 1])
    ensures OptionLines(lines) == lines
  {
    if |lines| > 0 {
      StripOfStripped(lines[0]);
      CleanLinesAreOptions(lines[1..]);
    }
  }

  /** Processing inverts the question-and-options layout: a first line
      followed by up to four clean option lines gives back that line, cleaned,
      as the question, those options, and the first of them as the answer. */
  lemma ProcessMultipleChoiceInvertsLayout(first: string, options: seq<string>, optionsText: string)
    requires '\n' !in first
    requires 1 <= |options| <= MaxOptions
    requires forall k :: 0 <= k < |options| ==>
               && options[k] != [] && '\n' !in options[k]
               && !IsSpace(options[k][0]) && !IsSpace(options[k][|options[k]| - 1])
    ensures ProcessMultipleChoice(Join([first] + options, "\n"), optionsText)
            == Success(MultipleChoice(CleanQuestionText(first), options, options[0]))
  {
    var lines := [first] + options;
    var text := Join(lines, "\n");
    assert forall k :: 1 <= k < |lines| ==> lines[k] == options[k - 1];
    SplitJoin(lines, '\n');
    assert Split(text, '\n') == lines;
    assert '\n' in text by {
      SplitHead(text, '\n');
    }
    assert LaterLines(text) == options;
    assert OptionSource(text, optionsText) == options;
    assert FirstLine(text) == first;
    CleanLinesAreOptions(options);
  }

  /** A "Question:" label anywhere, not only at the front, is removed: the
      text before the first label is kept, and the removal continues after
      it. */
  lemma CleanQuestionTextDropsInnerLabel(front: string, rest: string)
    requires forall i: nat :: i < |front| ==> !OccursAt(QuestionLabel, front + (QuestionLabel + rest), i)
    ensures CleanQuestionText(front + (QuestionLabel + rest))
            == Strip(front + RemoveAll(rest, QuestionLabel))
  {
    RemoveAllKeepsPrefix(QuestionLabel, front, QuestionLabel + rest);
    RemoveAllAfterPattern(QuestionLabel, rest);
  }

  /** `_process_essay_question`: the whole generated text, cleaned, is the
      question, and a second generation, `referenceText`, is its reference
      answer. */
  function ProcessEssayQuestion(generatedText: string, referenceText: string)
    : (q: GeneratedQuestion)
    ensures q.EssayQuestion? && q.QuestionType() == EssayType
    ensures q.text == CleanQuestionText(generatedText)
    ensures q.referenceAnswer == referenceText
  {
    EssayQuestion(CleanQuestionText(generatedText), referenceText)
  }

  // ---------------------------------------------------------------- prompts

  // The prompts are written as concatenations of short literals so that the
  // verifier can look inside them.
  const MultipleChoicePromptLead := "Generate a multiple choice " + "question about "
  const EssayPromptLead := "Generate an essay question " + "about "
  const OptionsPromptLead := "Generate 4 options for the " + "question: "
  const OptionsPromptTail := "\nOptions:"
  const ReferencePromptLead := "Write a model answer for the " + "question: "

  /** The first line of the question prompt, which names the topic. */
  function PromptHead(questionType: string, topic: string): string {
    (if questionType == MultipleChoiceType then MultipleChoicePromptLead else EssayPromptLead)
    + topic + ":"
  }

  /** The prompt `generate_question` gives GPT-2: the topic line, then a
      "Question:" line for the model to complete. */
  function QuestionPrompt(questionType: string, topic: string): string {
    PromptHead(questionType, topic) + "\n" + QuestionLabel
  }

  /** The prompt for the options of a one-line question. */
  function OptionsPrompt(question: string): string {
    OptionsPromptLead + question + OptionsPromptTail
  }

  /** The prompt for the reference answer of an essay question. */
  function ReferencePrompt(question: string): string {
    ReferencePromptLead + question
  }

  /** What decoding `outputs[0]` yields: GPT-2's `generate` returns the prompt's
      tokens followed by the new ones, so the text is the prompt followed by
      the continuation the model wrote. */
  function DecodedOutput(prompt: string, continuation: string): (text: string)
    ensures prompt <= text
    ensures text[|prompt|..] == continuation
  {
    prompt + continuation
  }

  // ----------------------------------------------------------- generate_question

  /** `generate_question` as written, with what GPT-2 writes after each prompt
      as an oracle (`continuation` for the question prompt, the other two for
      the options and reference prompts). The whole decoded output, prompt
      included, is post-processed. 'multiple_choice' selects the
      multiple-choice processing, any other type the essay processing; a
      failure comes back wrapped once more. */
  function GenerateQuestion(questionType: string, topic: string, continuation: string,
                            optionsContinuation: string, referenceContinuation: string)
    : (r: Result<GeneratedQuestion, string>)
    ensures r.Success? ==>
              r.value.QuestionType() == (if questionType == MultipleChoiceType then MultipleChoiceType
                                         else EssayType)
    ensures questionType != MultipleChoiceType ==>
              var text := DecodedOutput(QuestionPrompt(questionType, topic), continuation);
              r == Success(ProcessEssayQuestion(
                     text, DecodedOutput(ReferencePrompt(CleanQuestionText(text)), referenceContinuation)))
    ensures questionType == MultipleChoiceType ==>
              var text := DecodedOutput(QuestionPrompt(questionType, topic), continuation);
              var p := ProcessMultipleChoice(
                         text, DecodedOutput(OptionsPrompt(CleanQuestionText(FirstLine(text))), optionsContinuation));
              && (r.Success? <==> p.Success?)
              && (r.Success? ==> r.value == p.value)
    ensures r.Failure? ==> r.error == GenerationError(NoOptionsError)
    ensures r.Success? && r.value.MultipleChoice? ==>
              r.value.correctAnswer in r.value.options && |r.value.options| <= MaxOptions
  {
    var text := DecodedOutput(QuestionPrompt(questionType, topic), continuation);
    if questionType == MultipleChoiceType then
      var question := CleanQuestionText(FirstLine(text));
      match ProcessMultipleChoice(text, DecodedOutput(OptionsPrompt(question), optionsContinuation))
      case Success(q) => Success(q)
      case Failure(e) => Failure(GenerationError(e))
    else
      Success(ProcessEssayQuestion(text, DecodedOutput(ReferencePrompt(CleanQuestionText(text)),
                                                 referenceContinuation)))
  }

  /** The decoded multiple-choice output splits into the prompt's topic line
      and the "Question:" line the model completed, followed by the model's
      later lines. */
  lemma DecodedLines(topic: string, continuation: string)
    requires '\n' !in topic
    ensures var text := DecodedOutput(QuestionPrompt(MultipleChoiceType, topic), continuation);
            && '\n' in text
            && FirstLine(text) == PromptHead(MultipleChoiceType, topic)
            && LaterLines(text) == Split(QuestionLabel + continuation, '\n')
            && Split(QuestionLabel + continuation, '\n')[0] == QuestionLabel + FirstLine(continuation)
  {
    var head := PromptHead(MultipleChoiceType, topic);
    var rest := QuestionLabel + continuation;
    var text := DecodedOutput(QuestionPrompt(MultipleChoiceType, topic), continuation);
    assert '\n' !in MultipleChoicePromptLead;
    assert '\n' !in head;
    assert '\n' !in QuestionLabel;
    assert text == head + ("\n" + rest);
    SplitAfterWord(head, "\n" + rest, '\n');
    assert ("\n" + rest)[0] == '\n';
    assert ("\n" + rest)[1..] == rest;
    assert Split("\n" + rest, '\n') == [""] + Split(rest, '\n');
    assert head + "" == head;
    assert Split(text, '\n') == [head] + Split(rest, '\n');
    SplitAfterWord(QuestionLabel, continuation, '\n');
  }

  /** As written, the stored question of a multiple-choice generation is the
      prompt's own topic line, and the correct answer is the "Question:" line
      the model completed, label included: processing the whole decoded output
      never reaches the question the model wrote. It never fails either, since
      that label line is never blank. */
  lemma MultipleChoiceQuestionIsPromptLine(topic: string, continuation: string,
                                           optionsContinuation: string, referenceContinuation: string)
    requires '\n' !in topic
    requires forall i: nat :: !OccursAt(QuestionLabel, PromptHead(MultipleChoiceType, topic), i)
    ensures var r := GenerateQuestion(MultipleChoiceType, topic, continuation, optionsContinuation,
                                      referenceContinuation);
            && r.Success?
            && r.value.text == PromptHead(MultipleChoiceType, topic)
            && r.value.correctAnswer == Strip(QuestionLabel + FirstLine(continuation))
            && QuestionLabel <= r.value.correctAnswer
  {
    var head := PromptHead(MultipleChoiceType, topic);
    var text := DecodedOutput(QuestionPrompt(MultipleChoiceType, topic), continuation);
    var lines := Split(QuestionLabel + continuation, '\n');
    DecodedLines(topic, continuation);
    assert head[0] == 'G' && head[|head| - 1] == ':';
    CleanLabelFreeText(head);
    StripOfStripped(head);
    StripKeepsClosedFront(QuestionLabel, FirstLine(continuation));
    var first := Strip(lines[0]);
    assert first != [];
    assert OptionLines(lines) == [first] + OptionLines(lines[1..]);
  }

  /** A label cannot straddle a line feed, so a line without a label stays
      without one whatever follows the line feed. */
  lemma NoLabelAcrossLineBreak(line: string, after: string)
    requires forall i: nat :: !OccursAt(QuestionLabel, line, i)
    ensures forall i: nat :: i < |line + "\n"| ==> !OccursAt(QuestionLabel, (line + "\n") + after, i)
  {
    var s := (line + "\n") + after;
    forall i: nat | i < |line + "\n"|
      ensures !OccursAt(QuestionLabel, s, i)
    {
      if i + |QuestionLabel| <= |line| {
        assert s[i..][..|QuestionLabel|] == line[i..][..|QuestionLabel|];
        assert !OccursAt(QuestionLabel, line, i);
      } else if i + |QuestionLabel| <= |s| {
        assert s[|line|] == '\n';
        assert s[i..][..|QuestionLabel|][|line| - i] == '\n';
        assert QuestionLabel[|line| - i] != '\n';
        assert s[i..][..|QuestionLabel|] != QuestionLabel;
      }
    }
  }

  /** Behind a label-free line, the removal drops the label that opens the
      next line and carries on through the rest. */
  lemma RemoveLabelAfterLine(head: string, continuation: string)
    requires forall i: nat :: !OccursAt(QuestionLabel, head, i)
    ensures RemoveAll((head + "\n") + (QuestionLabel + continuation), QuestionLabel)
            == (head + "\n") + RemoveAll(continuation, QuestionLabel)
  {
    NoLabelAcrossLineBreak(head, QuestionLabel + continuation);
    RemoveAllKeepsPrefix(QuestionLabel, head + "\n", QuestionLabel + continuation);
    RemoveAllAfterPattern(QuestionLabel, continuation);
  }

  /** Cleaning a decoded text whose first line has no label removes the
      "Question:" the prompt ends with and every one the scan meets after it. */
  lemma CleanDecodedText(head: string, continuation: string)
    requires forall i: nat :: !OccursAt(QuestionLabel, head, i)
    ensures CleanQuestionText(head + "\n" + QuestionLabel + continuation)
            == Strip(head + ("\n" + RemoveAll(continuation, QuestionLabel)))
  {
    var removed := RemoveAll(continuation, QuestionLabel);
    RemoveLabelAfterLine(head, continuation);
    RegroupDecoded(head, continuation, removed);
  }

  /** The regroupings `CleanDecodedText` needs. */
  lemma RegroupDecoded(head: string, continuation: string, removed: string)
    ensures head + "\n" + QuestionLabel + continuation == (head + "\n") + (QuestionLabel + continuation)
    ensures (head + "\n") + removed == head + ("\n" + removed)
  {
  }

  /** As written, an essay question opens with the prompt's topic line and its
      reference answer with the reference prompt. */
  lemma EssayQuestionOpensWithPrompt(questionType: string, topic: string, continuation: string,
                                     optionsContinuation: string, referenceContinuation: string)
    requires questionType != MultipleChoiceType
    requires forall i: nat :: !OccursAt(QuestionLabel, PromptHead(questionType, topic), i)
    ensures var r := GenerateQuestion(questionType, topic, continuation, optionsContinuation,
                                      referenceContinuation);
            && r.Success?
            && PromptHead(questionType, topic) <= r.value.text
            && ReferencePromptLead <= r.value.referenceAnswer
  {
    var head := PromptHead(questionType, topic);
    CleanDecodedText(head, continuation);
    assert head[0] == 'G' && head[|head| - 1] == ':';
    StripKeepsClosedFront(head, "\n" + RemoveAll(continuation, QuestionLabel));
  }

  /** `generate_question` as evidently intended: only the tokens the model
      added are decoded, so each processing step sees what the model wrote and
      not the prompt in front of it. */
  function GenerateQuestionIntended(questionType: string, topic: string, continuation: string,
                                    optionsContinuation: string, referenceContinuation: string)
    : (r: Result<GeneratedQuestion, string>)
    ensures r.Success? ==>
              r.value.QuestionType() == (if questionType == MultipleChoiceType then MultipleChoiceType
                                         else EssayType)
    ensures questionType != MultipleChoiceType ==>
              r == Success(ProcessEssayQuestion(continuation, referenceContinuation))
    ensures questionType == MultipleChoiceType ==>
              var p := ProcessMultipleChoice(continuation, optionsContinuation);
              && (r.Success? <==> p.Success?)
              && (r.Success? ==> r.value == p.value)
    ensures r.Failure? ==> r.error == GenerationError(NoOptionsError)
  {
    if questionType == MultipleChoiceType then
      match ProcessMultipleChoice(continuation, optionsContinuation)
      case Success(q) => Success(q)
      case Failure(e) => Failure(GenerationError(e))
    else
      Success(ProcessEssayQuestion(continuation, referenceContinuation))
  }

  /** With only the new tokens decoded, a model that writes the question on
      one line and the options on the following lines gets exactly that
      question and those options back, whatever the topic. */
  lemma IntendedQuestionFollowsGeneration(topic: string, first: string, options: seq<string>,
                                          optionsContinuation: string, referenceContinuation: string)
    requires '\n' !in first
    requires 1 <= |options| <= MaxOptions
    requires forall k :: 0 <= k < |options| ==>
               && options[k] != [] && '\n' !in options[k]
               && !IsSpace(options[k][0]) && !IsSpace(options[k][|options[k]| - 1])
    ensures GenerateQuestionIntended(MultipleChoiceType, topic, Join([first] + options, "\n"),
                                     optionsContinuation, referenceContinuation)
            == Success(MultipleChoice(CleanQuestionText(first), options, options[0]))
  {
    ProcessMultipleChoiceInvertsLayout(first, options, optionsContinuation);
  }
}

=== FILE: text.dfy ===
/** The Python string operations the exam system relies on, over `seq<char>`.
    Character classes are the ASCII part of Python's Unicode classes. */
module Text {
  import opened Wrappers

  /** Python's `str.isspace` on ASCII: space, tab, line feed, vertical tab,
      form feed, carriage return, and the separators 0x1C to 0x1F. */
  predicate IsSpace(c: char) {
    c == ' ' || ('\t' <= c <= '\r') || ('\U{1C}' <= c <= '\U{1F}')
  }

  predicate IsDigit(c: char) { '0' <= c <= '9' }

  predicate IsUpper(c: char) { 'A' <= c <= 'Z' }

  predicate IsLower(c: char) { 'a' <= c <= 'z' }

  predicate IsLetter(c: char) { IsUpper(c) || IsLower(c) }

  /** Python's `any(p(c) for c in s)`. */
  function Any(s: string, p: char -> bool): (r: bool)
    ensures r <==> exists i :: 0 <= i < |s| && p(s[i])
  {
    if |s| == 0 then false
    else if p(s[0]) then true
    else
      var tail := Any(s[1..], p);
      assert forall i :: 1 <= i < |s| ==> s[i] == s[1..][i - 1];
      tail
  }

  /** Python's `all(p(c) for c in s)`. */
  function All(s: string, p: char -> bool): (r: bool)
    ensures r <==> forall i :: 0 <= i < |s| ==> p(s[i])
  {
    if |s| == 0 then true
    else if !p(s[0]) then false
    else
      var tail := All(s[1..], p);
      assert forall i :: 1 <= i < |s| ==> s[i] == s[1..][i - 1];
      tail
  }

  /** `All` on a slice speaks about the characters of the whole string in that range. */
  lemma AllOnRange(s: string, lo: int, hi: int, p: char -> bool)
    requires 0 <= lo <= hi <= |s|
    ensures All(s[lo..hi], p) <==> forall i :: lo <= i < hi ==> p(s[i])
  {
    assert forall i :: lo <= i < hi ==> s[i] == s[lo..hi][i - lo];
  }

  /** Python's `c.lower()` on ASCII. */
  function ToLower(c: char): (d: char)
    ensures !IsUpper(d)
    ensures IsSpace(d) <==> IsSpace(c)
    ensures !IsUpper(c) ==> d == c
    ensures IsUpper(c) ==> d as int == c as int + 32
  {
    if IsUpper(c) then (c as int + 32) as char else c
  }

  /** Python's `s.lower()` on ASCII. */
  function Lower(s: string): (r: string)
    ensures |r| == |s|
    ensures forall i :: 0 <= i < |s| ==> r[i] == ToLower(s[i])
  {
    seq(|s|, i requires 0 <= i < |s| => ToLower(s[i]))
  }

  /** Position of the first `c` in `s`, if there is one. */
  function IndexOf(s: string, c: char): (r: Option<nat>)
    ensures r.None? <==> c !in s
    ensures r.Some? ==> r.value < |s| && s[r.value] == c && c !in s[..r.value]
  {
    if |s| == 0 then None
    else if s[0] == c then Some(0)
    else
      match IndexOf(s[1..], c)
      case None => None
      case Some(k) =>
        assert s[..k + 1] == [s[0]] + s[1..][..k];
        Some(k + 1)
  }

  /** Position of the last `c` in `s`, if there is one. */
  function LastIndexOf(s: string, c: char): (r: Option<nat>)
    ensures r.None? <==> c !in s
    ensures r.Some? ==> r.value < |s| && s[r.value] == c && c !in s[r.value + 1..]
  {
    if |s| == 0 then None
    else if s[|s| - 1] == c then Some(|s| - 1)
    else
      var front := s[..|s| - 1];
      assert s == front + [s[|s| - 1]];
      match LastIndexOf(front, c)
      case None => None
      case Some(k) =>
        assert s[k + 1..] == front[k + 1..] + [s[|s| - 1]];
        Some(k)
  }

  /** Python's `s.split(sep)` for a one-character separator: the pieces between
      separators, empty pieces kept, so there is always at least one. */
  function Split(s: string, sep: char): (parts: seq<string>)
    ensures |parts| >= 1
    ensures forall k :: 0 <= k < |parts| ==> sep !in parts[k]
    decreases |s|
  {
    if |s| == 0 then [""]
    else if s[0] == sep then [""] + Split(s[1..], sep)
    else
      var rest := Split(s[1..], sep);
      [[s[0]] + rest[0]] + rest[1..]
  }

  /** Python's `sep.join(parts)`. */
  function Join(parts: seq<string>, sep: string): string
  {
    if |parts| == 0 then ""
    else if |parts| == 1 then parts[0]
    else parts[0] + sep + Join(parts[1..], sep)
  }

  /** Joining the pieces of a split with the separator gives back the string. */
  lemma {:induction false} JoinSplit(s: string, sep: char)
    ensures Join(Split(s, sep), [sep]) == s
    decreases |s|
  {
    if |s| == 0 {
    } else if s[0] == sep {
      JoinSplit(s[1..], sep);
      assert s == [sep] + s[1..];
    } else {
      var rest := Split(s[1..], sep);
      JoinSplit(s[1..], sep);
      if |rest| == 1 {
        assert s == [s[0]] + s[1..];
      } else {
        assert Join(rest, [sep]) == rest[0] + [sep] + Join(rest[1..], [sep]);
        assert s == [s[0]] + s[1..];
      }
    }
  }

  /** The first piece of a split is the text before the first separator, and
      the remaining pieces are the split of what follows that separator. */
  lemma {:induction false} SplitHead(s: string, sep: char)
    ensures |Split(s, sep)[0]| <= |s|
    ensures Split(s, sep)[0] == s[..|Split(s, sep)[0]|]
    ensures |Split(s, sep)[0]| < |s| ==> s[|Split(s, sep)[0]|] == sep
    ensures |Split(s, sep)| >= 2 <==> sep in s
    ensures sep in s ==> Split(s, sep)[1..] == Split(s[|Split(s, sep)[0]| + 1..], sep)
    decreases |s|
  {
    if |s| == 0 {
    } else if s[0] == sep {
    } else {
      var rest := Split(s[1..], sep);
      SplitHead(s[1..], sep);
      var p := [s[0]] + rest[0];
      assert Split(s, sep)[0] == p;
      assert s[..|p|] == [s[0]] + s[1..][..|rest[0]|];
      assert sep in s <==> sep in s[1..] by {
        assert s == [s[0]] + s[1..];
      }
      if sep in s {
        assert s[|p| + 1..] == s[1..][|rest[0]| + 1..];
      }
    }
  }

  /** Splitting a separator-free word followed by `rest` glues the word onto the
      first piece of `rest`. */
  lemma {:induction false} SplitAfterWord(w: string, rest: string, sep: char)
    requires sep !in w
    ensures Split(w + rest, sep) == [w + Split(rest, sep)[0]] + Split(rest, sep)[1..]
    decreases |w|
  {
    if |w| == 0 {
      var parts := Split(rest, sep);
      assert w + rest == rest;
      assert w + parts[0] == parts[0];
      assert [parts[0]] + parts[1..] == parts;
    } else {
      assert (w + rest)[1..] == w[1..] + rest;
      SplitAfterWord(w[1..], rest, sep);
      assert [w[0]] + (w[1..] + Split(rest, sep)[0]) == w + Split(rest, sep)[0];
    }
  }

  /** Splitting a join of separator-free pieces gives back the pieces. */
  lemma {:induction false} SplitJoin(parts: seq<string>, sep: char)
    requires |parts| >= 1
    requires forall k :: 0 <= k < |parts| ==> sep !in parts[k]
    ensures Split(Join(parts, [sep]), sep) == parts
  {
    if |parts| == 1 {
      SplitAfterWord(parts[0], "", sep);
      assert parts[0] + "" == parts[0];
    } else {
      var tail := Join(parts[1..], [sep]);
      SplitJoin(parts[1..], sep);
      SplitAfterWord(parts[0], [sep] + tail, sep);
      assert parts[0] + [sep] + tail == parts[0] + ([sep] + tail);
      assert ([sep] + tail)[0] == sep;
      assert ([sep] + tail)[1..] == tail;
      assert Split([sep] + tail, sep) == [""] + parts[1..];
      assert parts[0] + "" == parts[0];
      assert parts == [parts[0]] + parts[1..];
    }
  }

  /** A word of Python's `split()`: non-empty, no whitespace. */
  predicate IsWord(w: string) {
    |w| > 0 && forall i :: 0 <= i < |w| ==> !IsSpace(w[i])
  }

  /** Length of the run of non-whitespace characters that starts `s`. */
  function WordLength(s: string): (n: nat)
    ensures n <= |s|
    ensures forall i :: 0 <= i < n ==> !IsSpace(s[i])
    ensures n < |s| ==> IsSpace(s[n])
  {
    if |s| == 0 || IsSpace(s[0]) then 0
    else
      var n := WordLength(s[1..]);
      assert forall i :: 1 <= i < |s| ==> s[i] == s[1..][i - 1];
      1 + n
  }

  /** Python's `s.split()` with no argument: the maximal runs of non-whitespace
      characters, in order, with no empty piece. */
  function Words(s: string): (ws: seq<string>)
    ensures forall k :: 0 <= k < |ws| ==> IsWord(ws[k])
    ensures |ws| <= |s|
    decreases |s|
  {
    if |s| == 0 then []
    else if IsSpace(s[0]) then Words(s[1..])
    else
      var n := WordLength(s);
      [s[..n]] + Words(s[n..])
  }

  /** Whitespace in front of the text is skipped: leading, repeated and
      trailing whitespace never produces a piece. */
  lemma {:induction false} WordsSkipsSpace(c: char, s: string)
    requires IsSpace(c)
    ensures Words([c] + s) == Words(s)
  {
    assert ([c] + s)[1..] == s;
  }

  /** A word followed by the end of the text or by whitespace is the first
      piece, and splitting goes on with what follows it. With `WordsSkipsSpace`,
      and no words in the empty text (`|ws| <= |s|`), this determines
      `split()` on every text. */
  lemma {:induction false} WordsTakesWord(w: string, rest: string)
    requires IsWord(w)
    requires rest == [] || IsSpace(rest[0])
    ensures Words(w + rest) == [w] + Words(rest)
  {
    var s := w + rest;
    assert forall i :: 0 <= i < |w| ==> s[i] == w[i];
    assert |w| < |s| ==> s[|w|] == rest[0];
    var n := WordLength(s);
    assert n == |w|;
    assert s[..n] == w;
    assert s[n..] == rest;
  }

  /** Leading whitespace is skipped: `" a".split()` is `["a"]`. */
  lemma WordsExample()
    ensures Words(" a") == ["a"]
  {
    assert "a" + "" == "a";
    WordsTakesWord("a", "");
    assert [' '] + "a" == " a";
    WordsSkipsSpace(' ', "a");
  }

  /** Words joined by single spaces split back into the same words. */
  lemma {:induction false} WordsOfJoin(ws: seq<string>)
    requires forall k :: 0 <= k < |ws| ==> IsWord(ws[k])
    ensures Words(Join(ws, " ")) == ws
  {
    if |ws| == 0 {
    } else {
      var w := ws[0];
      var tail := if |ws| == 1 then "" else " " + Join(ws[1..], " ");
      var s := w + tail;
      assert s == Join(ws, " ");
      var n := WordLength(s);
      if |ws| > 1 {
        assert s[|w|] == ' ';
      }
      assert n == |w|;
      assert s[..n] == w;
      assert s[n..] == tail;
      if |ws| > 1 {
        WordsOfJoin(ws[1..]);
        assert tail[1..] == Join(ws[1..], " ");
      }
      assert ws == [w] + ws[1..];
    }
  }

  /** Number of whitespace characters that start `s`. */
  function LeadingSpace(s: string): (n: nat)
    ensures n <= |s|
    ensures forall i :: 0 <= i < n ==> IsSpace(s[i])
    ensures n < |s| ==> !IsSpace(s[n])
  {
    if |s| == 0 || !IsSpace(s[0]) then 0
    else
      var n := LeadingSpace(s[1..]);
      assert forall i :: 1 <= i < |s| ==> s[i] == s[1..][i - 1];
      1 + n
  }

  /** Number of whitespace characters that end `s`. */
  function TrailingSpace(s: string): (n: nat)
    ensures n <= |s|
    ensures forall i :: |s| - n <= i < |s| ==> IsSpace(s[i])
    ensures n < |s| ==> !IsSpace(s[|s| - n - 1])
  {
    if |s| == 0 || !IsSpace(s[|s| - 1]) then 0
    else
      var n := TrailingSpace(s[..|s| - 1]);
      1 + n
  }

  /** Python's `s.strip()`: `s` with its leading and trailing whitespace removed. */
  function Strip(s: string): (r: string)
    ensures |r| <= |s|
    ensures r == [] <==> All(s, IsSpace)
    ensures r != [] ==> !IsSpace(r[0]) && !IsSpace(r[|r| - 1])
  {
    var a := LeadingSpace(s);
    var rest := s[a..];
    var r := rest[..|rest| - TrailingSpace(rest)];
    StripWindow(s, a, r);
    r
  }

  /** `Strip` only removes whitespace: its result is a contiguous piece of the
      input with nothing but whitespace on either side. */
  lemma StripKeepsMiddle(s: string)
    ensures var r := Strip(s);
            exists i :: 0 <= i <= |s| - |r| && s[i..][..|r|] == r
                        && All(s[..i], IsSpace) && All(s[i + |r|..], IsSpace)
  {
    var a := LeadingSpace(s);
    StripWindow(s, a, Strip(s));
  }

  /** The window `Strip` keeps: after the leading whitespace, before the trailing. */
  lemma StripWindow(s: string, a: nat, r: string)
    requires a == LeadingSpace(s)
    requires r == s[a..][..|s[a..]| - TrailingSpace(s[a..])]
    ensures |r| <= |s|
    ensures r == [] <==> All(s, IsSpace)
    ensures r != [] ==> !IsSpace(r[0]) && !IsSpace(r[|r| - 1])
    ensures a + |r| <= |s| && s[a..][..|r|] == r
    ensures All(s[..a], IsSpace) && All(s[a + |r|..], IsSpace)
  {
    StripWindowSides(s, a, r);
    StripWindowEnds(s, a, r);
    StripWindowEmpty(s, a, r);
  }

  /** Everything outside the window is whitespace. */
  lemma StripWindowSides(s: string, a: nat, r: string)
    requires a == LeadingSpace(s)
    requires r == s[a..][..|s[a..]| - TrailingSpace(s[a..])]
    ensures a + |r| <= |s| && s[a..][..|r|] == r
    ensures forall i :: 0 <= i < a ==> IsSpace(s[i])
    ensures forall i :: a + |r| <= i < |s| ==> IsSpace(s[i])
    ensures All(s[..a], IsSpace) && All(s[a + |r|..], IsSpace)
  {
    var rest := s[a..];
    var b := TrailingSpace(rest);
    assert forall i :: a <= i < |s| ==> s[i] == rest[i - a];
    AllOnRange(s, 0, a, IsSpace);
    AllOnRange(s, a + |r|, |s|, IsSpace);
    assert s[0..a] == s[..a];
    assert s[a + |r|..|s|] == s[a + |r|..];
  }

  /** The window starts and ends with a non-space character. */
  lemma StripWindowEnds(s: string, a: nat, r: string)
    requires a == LeadingSpace(s)
    requires r == s[a..][..|s[a..]| - TrailingSpace(s[a..])]
    ensures r != [] ==> !IsSpace(r[0]) && !IsSpace(r[|r| - 1])
  {
    var rest := s[a..];
    if r != [] {
      assert r[0] == rest[0] == s[a];
      assert r[|r| - 1] == rest[|rest| - TrailingSpace(rest) - 1];
    }
  }

  /** The window is empty exactly when the whole string is whitespace. */
  lemma StripWindowEmpty(s: string, a: nat, r: string)
    requires a == LeadingSpace(s)
    requires r == s[a..][..|s[a..]| - TrailingSpace(s[a..])]
    ensures r == [] <==> All(s, IsSpace)
  {
    var rest := s[a..];
    if a < |s| {
      assert rest[0] == s[a];
      assert !IsSpace(rest[0]);
      assert r != [];
    } else {
      assert r == [];
    }
  }

  /** A string with no whitespace at either end is its own strip. */
  lemma StripOfStripped(s: string)
    requires s != [] && !IsSpace(s[0]) && !IsSpace(s[|s| - 1])
    ensures Strip(s) == s
  {
    assert LeadingSpace(s) == 0;
    assert s[0..] == s;
    assert TrailingSpace(s) == 0;
  }

  /** Stripping keeps a front that has no whitespace at either end. */
  lemma StripKeepsClosedFront(p: string, x: string)
    requires p != [] && !IsSpace(p[0]) && !IsSpace(p[|p| - 1])
    ensures p <= Strip(p + x)
  {
    var s := p + x;
    assert s[0] == p[0];
    assert LeadingSpace(s) == 0;
    assert s[0..] == s;
    var t := TrailingSpace(s);
    assert s[|p| - 1] == p[|p| - 1];
    assert t <= |x|;
    assert Strip(s) == s[..|s| - t];
  }

  /** An occurrence of `pat` starts at position `i` of `s`. */
  predicate OccursAt(pat: string, s: string, i: nat) {
    i + |pat| <= |s| && s[i..][..|pat|] == pat
  }

  /** Python's `s.replace(pat, "")`: the occurrences of `pat` found scanning left
      to right, without overlap, deleted. */
  function RemoveAll(s: string, pat: string): (r: string)
    requires |pat| > 0
    ensures |r| <= |s|
    decreases |s|
  {
    if |s| < |pat| then s
    else if s[..|pat|] == pat then RemoveAll(s[|pat|..], pat)
    else [s[0]] + RemoveAll(s[1..], pat)
  }

  /** With no occurrence anywhere, nothing is removed. */
  lemma {:induction false} RemoveAllWithoutOccurrence(s: string, pat: string)
    requires |pat| > 0
    requires forall i: nat :: !OccursAt(pat, s, i)
    ensures RemoveAll(s, pat) == s
    decreases |s|
  {
    if |s| >= |pat| {
      assert !OccursAt(pat, s, 0);
      assert s[0..] == s;
      forall i: nat
        ensures !OccursAt(pat, s[1..], i)
      {
        if OccursAt(pat, s[1..], i) {
          OccursInTail(pat, s, i);
          assert false;
        }
      }
      RemoveAllWithoutOccurrence(s[1..], pat);
      assert s == [s[0]] + s[1..];
    }
  }

  /** An occurrence at the front is deleted and the scan resumes after it. */
  lemma RemoveAllAfterPattern(pat: string, s: string)
    requires |pat| > 0
    ensures RemoveAll(pat + s, pat) == RemoveAll(s, pat)
  {
    assert (pat + s)[..|pat|] == pat;
    assert (pat + s)[|pat|..] == s;
  }
  /** Without an occurrence at the front, the first character is kept and the
      scan resumes at the next one. */
  lemma RemoveAllKeepsHead(pat: string, c: char, s: string)
    requires |pat| > 0
    requires !OccursAt(pat, [c] + s, 0)
    ensures RemoveAll([c] + s, pat) == [c] + RemoveAll(s, pat)
  {
    assert ([c] + s)[1..] == s;
    assert ([c] + s)[0..] == [c] + s;
  }

  /** Without an occurrence at the front of a non-empty string, its first
      character is kept and the scan resumes at the next one. */
  lemma RemoveAllStepsOver(pat: string, t: string)
    requires |pat| > 0 && |t| > 0
    requires !OccursAt(pat, t, 0)
    ensures RemoveAll(t, pat) == [t[0]] + RemoveAll(t[1..], pat)
  {
    assert t[0..] == t;
  }

  /** An occurrence in `t[1..]` is an occurrence one position later in `t`. */
  lemma OccursInTail(pat: string, t: string, i: nat)
    requires |t| > 0
    requires OccursAt(pat, t[1..], i)
    ensures OccursAt(pat, t, i + 1)
  {
    assert t[1..][i..] == t[i + 1..];
  }

  /** Dropping the first character shifts an occurrence-free front by one. */
  lemma NoOccurrenceInTail(pat: string, t: string, n: nat)
    requires 0 < n <= |t|
    requires forall i: nat :: i < n ==> !OccursAt(pat, t, i)
    ensures forall i: nat :: i < n - 1 ==> !OccursAt(pat, t[1..], i)
  {
    forall i: nat | i < n - 1
      ensures !OccursAt(pat, t[1..], i)
    {
      if OccursAt(pat, t[1..], i) {
        OccursInTail(pat, t, i);
        assert false;
      }
    }
  }

  /** The pieces of `t[1..]` cut at `n - 1` are the pieces of `t` cut at `n`,
      less the first character. */
  lemma FrontAfterHead(t: string, n: nat)
    requires 0 < n <= |t|
    ensures t[1..][n - 1..] == t[n..]
    ensures [t[0]] + t[1..][..n - 1] == t[..n]
  {
  }

  /** The first `n` characters, in which no occurrence starts, are kept as
      they are, and the scan resumes after them. */
  lemma {:induction false} RemoveAllKeepsFirst(pat: string, t: string, n: nat)
    requires |pat| > 0 && n <= |t|
    requires forall i: nat :: i < n ==> !OccursAt(pat, t, i)
    ensures RemoveAll(t, pat) == t[..n] + RemoveAll(t[n..], pat)
  {
    if n == 0 {
      assert t[..0] + RemoveAll(t[0..], pat) == RemoveAll(t, pat) by {
        assert t[0..] == t;
      }
    } else {
      NoOccurrenceInTail(pat, t, n);
      RemoveAllKeepsFirst(pat, t[1..], n - 1);
      RemoveAllStepsOver(pat, t);
      FrontAfterHead(t, n);
    }
  }

  /** A prefix in which no occurrence starts is kept as it is, and the scan
      resumes after it: together with `RemoveAllAfterPattern` this makes every
      occurrence the scan meets, wherever it is, disappear. */
  lemma RemoveAllKeepsPrefix(pat: string, a: string, s: string)
    requires |pat| > 0
    requires forall i: nat :: i < |a| ==> !OccursAt(pat, a + s, i)
    ensures RemoveAll(a + s, pat) == a + RemoveAll(s, pat)
  {
    RemoveAllKeepsFirst(pat, a + s, |a|);
    assert (a + s)[..|a|] == a;
    assert (a + s)[|a|..] == s;
  }
}

=== FILE: wrappers.dfy ===
/** Optional values and results with an error, used for absent JSON keys,
    absent rows and operations that raise. */
module Wrappers {

  /** A value that may be absent: a missing request key, a NULL column, a row not found. */
  datatype Option<+T> = None | Some(value: T) {

    /** The value, or `default` when absent (Python's `dict.get(key, default)`). */
    function GetOr(default: T): T {
      match this
      case Some(v) => v
      case None => default
    }
  }

  /** The outcome of a call that either returns a value or raises with a message. */
  datatype Result<+T, +E> = Success(value: T) | Failure(error: E)
}
